=== FILE: README.md ===
# Storage and sharing core of a self-hosted cloud drive

This project models, in Dafny, the storage and access-control core of a
Flask cloud-drive backend (`backend/app.py`). The model covers:

- uploads that respect a per-user quota and rename a file until its name is free;
- folder listings with a breadcrumb;
- file deletion;
- folder creation, which keeps every folder's materialised path in step with the tree;
- share links with a password gate and an expiry;
- the streaming route, with its three ways of authorising a request and its HTTP Range handling.

The model's state is a class `Storage.Store` with these fields:

- the user table;
- the File, Folder and Share tables, as maps keyed by id or by token;
- the storage directory, as a map from paths to bytes plus a set of directories;
- the clock;
- the two id counters.

Each route that changes state is a method. A route that changes nothing is a `reads`-only function, except `ListFiles` and `StreamFile`: they are methods because their loops are methods. Each route's contract states which status it answers under which condition, and the exact new state.

The route logic is pure in a few places and is then modelled as functions:

- MIME classification (`Mime`);
- the Range header search and framing (`Ranges`);
- `os.path.splitext` and `str.strip` (`Names`);
- the usage sum, the listing filters and the breadcrumb chain (`Tables`).

The loops of the source are methods with invariants, each proved against one of those functions:

- the rename loop of an upload;
- the breadcrumb walk;
- the two chunked readers of the streaming route.

The libraries the routes call are modelled as uninterpreted functions held in `Storage.Oracles`:

- `secure_filename`;
- SHA-256;
- libmagic and `mimetypes`;
- bcrypt;
- JWT decoding.

Randomness enters as parameters: the share token and the bcrypt salt. The clock is the `now` field, in seconds.

Some behaviours of the code are easy to miss, and the model keeps them as written:

- **Root listings.** A file or folder stored with no folder id and one stored with folder id 0 both sit in the owner's top-level directory. The listing queries compare the stored value exactly (SQL `IS NULL` for none), so each form is listed only under itself.
- **Deleting a shared file.** Deletion removes the bytes and the File row. The Share-to-File relationship has no delete cascade and `file_id` is nullable, so the ORM keeps each share of the file and clears its file id. Such a share's page then fails with 500, and streaming the deleted id through its token answers 403.
- **Share expiry overflow.** An `expires_days` large enough to carry the expiry past year 9999 (or before year 1) makes the datetime arithmetic raise, and the route answers 500 without storing a share.
- **Unmatched Range header.** A non-empty Range header that the `bytes=(\d+)-(\d*)` search does not match still produces a 206 response covering the whole file.
- **Unclamped Range end.** The end of a range is not clamped to the file size, so Content-Length can exceed the bytes sent.

## Model

| member | source | states |
|---|---|---|
| Decimal.NatToString | backend/app.py:333 | the decimal text of a counter is a non-empty run of digits with no leading zero |
| Decimal.ParseNatToString | backend/app.py:827-829 | reading back the decimal text of a number with `int` gives the number |
| Decimal.NatToStringInjective | backend/app.py:333 | distinct counters have distinct decimal texts |
| Decimal.IntToStringRoundTrip | backend/app.py:851 | the text `str` gives an integer starts with a minus sign exactly when it is negative, and the digits after the sign read back as its magnitude |
| Names.Splitext | backend/app.py:331 | splitext cuts the name into stem and extension that concatenate back to it; the extension is empty or a dot with no further dot, and it is non-empty exactly when the last dot of the last component follows a non-dot character |
| Names.AttemptInjective | backend/app.py:330-335 | the rename loop never tests the same name twice: the original and every `base_n.ext` are pairwise distinct |
| Names.ResolveCollision | backend/app.py:328-335 | the loop stops at a name that is not taken; that name is the renames-th attempt; every earlier attempt was taken; the number of renames is at most the number of taken names |
| Names.Strip | backend/app.py:952 | strip removes exactly the leading and trailing characters that Python counts as whitespace (including the separators U+001C to U+001F and the Unicode spaces): the result is a slice of the input with only whitespace around it, does not start or end with whitespace, and is empty exactly when the input is all whitespace |
| Names.StripClean | backend/app.py:952 | a name with no whitespace at either end is unchanged by strip |
| Names.StripIdempotent | backend/app.py:952 | stripping a name twice gives the same result as stripping it once |
| Mime.StartsWithAny | backend/app.py:204 | `any(startswith)` holds exactly when some listed prefix is a prefix of the string |
| Mime.EndsWithAny | backend/app.py:170 | `any(endswith)` holds exactly when some listed suffix ends the string |
| Mime.IsStreamable | backend/app.py:192-204 | a missing or empty MIME type is not streamable; any other type is streamable exactly when it starts with one of the eight listed prefixes |
| Mime.OctetStreamNotStreamable | backend/app.py:192-204 | the generic fallback type `application/octet-stream` is not streamable |
| Mime.IsSafeExecutable | backend/app.py:168-170 | a path is executable exactly when its lower-cased form ends with one of the seven script extensions |
| Mime.SafeExecutableIgnoresCase | backend/app.py:168-170 | lower-casing a path first does not change the executable check |
| Ranges.DigitRun | backend/app.py:825 | the greedy digit run from an offset consists of digits and is followed by a non-digit or the end |
| Ranges.Search | backend/app.py:825 | when the search finds nothing, the pattern matches at no offset of the header; when it finds a match, that is the match at the leftmost offset where the pattern matches |
| Ranges.MatchParts | backend/app.py:825-829 | the header `bytes=A-B` matches at its start with start A and end B, or no end when B is empty |
| Ranges.Frame | backend/app.py:821-833 | a non-empty header always gives a partial response; its start is never negative; its length is end minus start plus one; an unmatched header frames the whole file as 0 to size-1 |
| Ranges.ExplicitRangeFraming | backend/app.py:823-833 | `bytes=S-E` frames exactly S to E with length E-S+1, whatever the file size |
| Ranges.OpenRangeFraming | backend/app.py:830-833 | `bytes=S-` runs to the last byte: end size-1 and length size-S |
| Ranges.FirstHundredBytes | backend/app.py:846-855 | `bytes=0-99` on a 1000-byte file gives 100 bytes and Content-Range `bytes 0-99/1000` |
| Ranges.ReadAt | backend/app.py:840 | a read at an offset returns the file's bytes from that offset, exactly the requested count or all that remain if fewer, and nothing at or past the end |
| Ranges.RangeBytes | backend/app.py:835-844 | the bytes a range delivers come from the file starting at the range start; there are exactly `length` of them when the range lies inside the file, fewer at end of file, and none for a non-positive length |
| Ranges.ReadRange | backend/app.py:835-844 | the chunks of the range generator concatenate to exactly those bytes; every chunk is non-empty and at most 4096 bytes |
| Ranges.ReadAll | backend/app.py:859-865 | the chunks of the full-file generator concatenate to the whole file; each is 1 to 4096 bytes and all but the last are exactly 4096 |
| Ranges.UnclampedEndOverstatesLength | backend/app.py:830-853 | a range starting inside the file and ending past it announces E-S+1 bytes while fewer are delivered |
| Tables.UsageAgree | backend/app.py:163-165 | two file tables that agree on every row below a bound give every user the same usage below it |
| Tables.UsageBeyondKeys | backend/app.py:163-165 | once the bound is past every id, raising it does not change the usage sum |
| Tables.UsageInsert | backend/app.py:163-165 | adding a row with a fresh, largest id adds its size to its owner's usage only |
| Tables.UsageInsertAll | backend/app.py:163-165 | adding such a row changes every user's usage by exactly that row's share |
| Tables.UsageRemove | backend/app.py:163-165 | removing a row takes its size off its owner's usage only |
| Tables.RootFormsListedApart | backend/app.py:391-394 | a file stored with no folder is listed at the root and not under folder 0, and a file stored with folder 0 is listed only under 0 |
| Tables.ChainShape | backend/app.py:417-429 | the breadcrumb runs from a top-level folder to the requested one; every entry is an existing folder of the same owner with its own name, and each entry is the parent of the next |
| Tables.PathFollowsChain | backend/app.py:963-966 | in a well-formed tree, every folder's path is its owner's name followed by the names along its breadcrumb |
| Tables.TreeOkAdd | backend/app.py:959-986 | adding a folder under a fresh id, with an owned parent (or none) and the path built from it, keeps the tree well formed |
| Disk.ChildPath | backend/app.py:329 | the joined path lies inside the directory and is at most one segment longer; it is the directory itself exactly when the name is empty, and otherwise ends with the name |
| Disk.PrefixesOfChild | backend/app.py:326 | making a child's directories makes the parent's directories plus the child itself |
| Disk.CanMakeDirsChild | backend/app.py:326 | makedirs of a child can run exactly when makedirs of its parent can and no regular file has the child's path |
| Disk.MadeDirsExist | backend/app.py:326 | after makedirs, the target and every ancestor of it exist |
| Disk.OccupiedMeansExists | backend/app.py:332 | a name counts as taken exactly when `os.path.exists` holds for it joined to the target directory |
| Storage.Store.UploadFile | backend/app.py:287-381 | an unknown user gets 404; a missing part or empty filename gets 400; 413 exactly when current usage plus size exceeds the quota; 500 for a truthy folder id beyond 64 bits; 404 for an unowned folder; 500 when every check passes but a regular file blocks makedirs; success exactly when every check passes and makedirs can run. On success: a fresh id; a stored name that was free, reached by the rename sequence; bytes written at the target directory plus that name; a row with the original name, size, detected type, hash and the folder id as given; the owner's usage grows by the size and stays within quota; other users' usage is unchanged |
| Storage.Store.PlaceFile | backend/app.py:326-369 | makedirs, the rename loop, the write and the new row: the stored name is free in the directory, the bytes land at that path, which held nothing before, and only the owner's usage grows |
| Storage.Store.AddFile | backend/app.py:357-369 | the new row takes the next id, and every user's usage changes by its share only |
| Storage.Store.ListFiles | backend/app.py:383-437 | 500 exactly when the folder id is beyond 64 bits; otherwise the folders and files listed are exactly the caller's rows whose parent or folder equals the requested id as given; the total is their count; the breadcrumb walk produces the folder's chain when the caller owns it, and nothing otherwise |
| Storage.Store.Breadcrumb | backend/app.py:417-429 | the walk that prepends each folder and moves to its parent yields exactly the folder's chain from its top-level ancestor |
| Storage.DetachFile | backend/app.py:87-102 | clearing a deleted file from the share table keeps every share, sets the file id of each share of the file to none, changes no other field, and leaves shares of other files as they were |
| Storage.Store.DeleteFile | backend/app.py:455-472 | 500 for a file id beyond 64 bits; otherwise 404 unless the caller owns the file; 500 when its path is a directory, with nothing changed; otherwise the bytes and the row are removed, the file's shares lose their file id, folders are untouched, and the owner's usage drops by the size |
| Storage.Store.CreateFolder | backend/app.py:945-1002 | 400 for a name that is empty after stripping; 500 for a truthy parent id beyond 64 bits; 404 for an unowned parent; 500 for an unknown user at top level; 409 exactly when a sibling with that name exists under that parent for that owner; 500 when makedirs cannot run; otherwise a new row under the next id with the path built from the parent, and the directories created |
| Storage.Store.AddFolder | backend/app.py:973-986 | the new folder takes the next id and the tree stays well formed, so every path still follows the parent links |
| Storage.Store.CreateShare | backend/app.py:592-667 | 500 for a looked-up id beyond 64 bits; 404 for an unowned file (checked first) or folder; 400 when neither id is truthy; 404 for an unknown recipient; 500 when the expiry overflows the datetime range; 500 at commit when either stored id is beyond 64 bits or the token is already in use; success exactly when none of these applies. The new share records both ids as given, the owner and flags, the recipient's id, a bcrypt hash of a non-empty password only, and an expiry `days * 86400` seconds after now only for non-zero days; no other share changes |
| Storage.Store.ViewShare | backend/app.py:704-749 | 404 exactly for an unknown token; 410 exactly for an expired share; the password page exactly when the share has a password and no truthy `authenticated` flag; otherwise the file view exactly when the shared file exists, with its streamable flag; the folder view exactly when the file is missing and the shared folder exists, with every file whose folder id equals the share's, whoever owns it; and the 500 failure exactly when neither exists |
| Storage.Store.VerifySharePassword | backend/app.py:751-767 | 404 for an unknown share or one without a password; 400 for a missing password; a redirect to `/share/<token>?authenticated=1` exactly when bcrypt accepts the candidate |
| Storage.Store.Authorize | backend/app.py:778-812 | a truthy share token is used first: 403 exactly when it is unknown or names another file, 410 exactly when it has expired, access exactly when the file exists, and 404 exactly when the share is live but its file is gone. Without a token, the `jwt` parameter if truthy and otherwise the header: 403 exactly when it is absent or invalid or the file id does not fit in 64 bits, access exactly when its subject owns the file, and 404 exactly when it is valid and the id fits but its subject does not own the file. Access is only ever to the requested, existing file |
| Storage.Store.StreamFile | backend/app.py:771-875 | refusals carry the status Authorize decides; 404 when the file's path does not exist, 500 when it is a directory or the range starts beyond a 64-bit offset; otherwise, with no Range, a 200 body of the whole file with Content-Length equal to the recorded size; with a Range, 206 with the framed Content-Length and Content-Range and exactly the range's bytes. The content type is the stored type or octet-stream, the disposition is inline with the original name, and chunks are 1 to 4096 bytes |
| Scenarios.RedirectOpensShare | backend/app.py:716-717 | after the password check redirects, the redirect target shows the share rather than the password page, for a share that has not expired |
| Scenarios.AuthenticatedFlagSkipsPassword | backend/app.py:716 | any non-empty `authenticated` value opens the page as the redirect's `1` does, whether or not a password was ever checked |
| Scenarios.ShareTokenStreams | backend/app.py:783-790 | a live share of the file lets its token stream the file, whatever the share's password and download flag and whatever other credentials are sent |
| Scenarios.ShareTokenIsScoped | backend/app.py:785-787 | a token that is unknown or shares another file is refused with 403 even if a valid JWT is also sent |
| Scenarios.FreshTree | backend/app.py:326-332 | right after makedirs in an empty store, only the directory itself is occupied |
| Scenarios.UploadThenList | backend/test_upload.py:26-50 | uploading `teste_upload.txt` with folder_id 0 and listing folder_id 0 shows the file under its own name and size; the listing without folder_id does not show it |
| Scenarios.OneUpload | backend/app.py:287-381 | a first upload into an empty store keeps the sanitised name and writes one file under the owner's directory |
| Scenarios.TwoUploads | backend/app.py:328-335 | two uploads of the same name give two rows under distinct ids; the first keeps the name and the second is stored under another |
| Scenarios.DuplicateUploadKeepsBoth | backend/app.py:328-335 | uploading the same name twice keeps both files under distinct ids, with the second stored under a different name |
| Scenarios.PasswordShareFlow | backend/app.py:634-637 | for a password share, the page first asks for the password; the right password redirects to a view of the file; the token streams the file although the share forbids downloads |
| Scenarios.ShareExpires | backend/app.py:629-632 | a one-day share opens now, and answers 410 on its page and when streaming once a day has passed |
| Scenarios.DeleteLeavesShare | backend/app.py:464-470 | after the shared file is deleted, its share page fails with 500 and streaming the deleted id through its token answers 403 |
| Scenarios.NestedFolders | backend/app.py:945-1002 | a folder created under another has the breadcrumb outer then inner, and creating it again under the same parent answers 409 |

## Left out

- Routes outside the storage and sharing core are not modelled: registration and login, the user-info and system-info routes, `execute_file`, thumbnails, `download_file`, `list_folders`, `list_shares` and the activity feed. `is_safe_executable` is modelled because the execution feature depends on it.
- Activity logging, `created_at`/`updated_at` timestamps and the `is_favorite` attribute are left out. A listing reports `is_favorite` as false in any case.
- The `Accept-Ranges: bytes` header is left out. It is a constant on both stream responses.
- JSON bodies whose fields have the wrong type (a string `name`, a non-integer `expires_days`) are left out. The model takes integers and strings already parsed. A non-integer `folder_id` form value reads as absent.
- Beyond clearing the file id of a deleted file's shares, SQLAlchemy's foreign-key handling is left out. Ids come from counters that never reuse a value, where SQLite may reuse the largest deleted rowid.
- Unicode digits and case folding are left out. The model covers the ASCII behaviour of `\d` and `str.lower`.
- Folder names containing `/`, absolute names, and `.` or `..` are left out. Paths are sequences of segments.
- The response generators are produced eagerly as the list of chunks they would yield. A failure inside a generator (opening a directory, a seek beyond 64 bits) happens after the status line is sent; the model answers it as a 500 refusal. Concurrent requests, and the race between the existence test and the write, are left out.
- `Storage.Store.StreamFile`: Content-Length is an integer, not its decimal text.
- `Storage.Store.StreamFile`: the bytes read are those stored at upload, and the file is not reread from disk between chunks.
- `Storage.Store.UploadFile`: the MIME type is guessed from the stored name rather than the full path. Only the extension matters to `mimetypes`.
- `Storage.Store.UploadFile`: the bytes are hashed as uploaded, not read back from disk.
- `Storage.Store.UploadFile`: write errors other than a file sitting where makedirs needs a directory are left out.
- The JSON routes take the caller's user id as already decoded. The 401 and 422 answers that `@jwt_required` gives for a missing, expired or malformed token are left out.
- The libraries are modelled only through their interfaces: `secure_filename`, SHA-256, libmagic, `mimetypes`, bcrypt and JWT decoding. `Scenarios.PasswordShareFlow` relies only on the requirements that bcrypt accepts the password a hash was made from and that the hash it produces is non-empty.
- The clock is in whole seconds: the microseconds of `utcnow()` are dropped from stored expiries and from the expiry comparison.
- `Storage.Store.StreamFile`: Python's limit of 4300 digits on `int()` of a string, which makes a longer Range number fail with 500, is left out; the model reads numbers of any length.

=== FILE: common.dfy ===
/**
 * Shared vocabulary of the storage model: optional values, bytes, storage
 * paths and Python's notion of a "truthy" request parameter.
 */
module Common {

  /** A value that may be absent (Python's None, SQL NULL). */
  datatype Option<+T> = None | Some(value: T)

  newtype byte = x: int | 0 <= x < 256

  type Bytes = seq<byte>

  /** A location under the storage root, one segment per directory level. */
  type Path = seq<string>

  /** `if value:` on an optional integer: absent and zero are both false. */
  predicate IntTruthy(o: Option<int>) {
    o.Some? && o.value != 0
  }

  /** `if value:` on an optional string: absent and empty are both false. */
  predicate StrTruthy(o: Option<string>) {
    o.Some? && o.value != ""
  }

  /** The largest value of a signed 64-bit integer (a C `long`, an SQLite INTEGER). */
  const MaxInt64: int := 0x7FFF_FFFF_FFFF_FFFF

  /** The value can be handed to C code or bound as an SQLite INTEGER without overflow. */
  predicate FitsInt64(x: int) {
    -MaxInt64 - 1 <= x <= MaxInt64
  }

  /** An optional id that a query can bind: absent, or within 64 bits. */
  predicate IdFits(o: Option<int>) {
    o.Some? ==> FitsInt64(o.value)
  }

  function Min(a: int, b: int): int {
    if a <= b then a else b
  }

  /** The concatenation of a sequence of chunks, as a client receives them. */
  function Flatten(chunks: seq<Bytes>): Bytes {
    if chunks == [] then [] else Flatten(chunks[..|chunks| - 1]) + chunks[|chunks| - 1]
  }

  /** Appending one chunk to a response appends its bytes to the body. */
  lemma FlattenAppend(chunks: seq<Bytes>, c: Bytes)
    ensures Flatten(chunks + [c]) == Flatten(chunks) + c
  {
    assert (chunks + [c])[..|chunks|] == chunks;
  }
}

=== FILE: decimal.dfy ===
/**
 * Decimal text of integers, as produced by Python's `str(int)` and read
 * back by `int(str)` on a run of ASCII digits.
 */
module Decimal {

  predicate IsDigit(c: char) {
    '0' <= c <= '9'
  }

  predicate AllDigits(s: string) {
    forall i :: 0 <= i < |s| ==> IsDigit(s[i])
  }

  function DigitChar(d: nat): (c: char)
    requires d < 10
    ensures IsDigit(c)
  {
    ('0' as int + d) as char
  }

  function DigitValue(c: char): (d: nat)
    requires IsDigit(c)
    ensures d < 10 && DigitChar(d) == c
  {
    c as int - '0' as int
  }

  /** `str(n)` for a non-negative integer: digits only, no leading zero. */
  function NatToString(n: nat): (s: string)
    ensures |s| >= 1 && AllDigits(s)
    ensures s[0] == '0' ==> n == 0
    decreases n
  {
    if n < 10 then [DigitChar(n)] else NatToString(n / 10) + [DigitChar(n % 10)]
  }

  /** `str(i)` for any integer: a minus sign before the magnitude when negative. */
  function IntToString(i: int): (s: string)
    ensures i >= 0 ==> s == NatToString(i)
    ensures i < 0 ==> s == "-" + NatToString(-i)
  {
    if i < 0 then "-" + NatToString(-i) else NatToString(i)
  }

  /** `int(s)` for a run of ASCII digits (leading zeros allowed); the empty run reads as 0. */
  function ParseDigits(s: string): nat
    requires AllDigits(s)
  {
    if s == [] then 0 else ParseDigits(s[..|s| - 1]) * 10 + DigitValue(s[|s| - 1])
  }

  /** Reading back the decimal text of a number gives the number. */
  lemma {:induction false} ParseNatToString(n: nat)
    ensures ParseDigits(NatToString(n)) == n
    decreases n
  {
    var s := NatToString(n);
    if n >= 10 {
      ParseNatToString(n / 10);
      assert s[..|s| - 1] == NatToString(n / 10);
    }
  }

  /**
   * The text of an integer starts with a minus sign exactly when the integer
   * is negative, and the digits after any sign read back as its magnitude.
   */
  lemma IntToStringRoundTrip(i: int)
    ensures var s := IntToString(i);
      && (|s| > 0 && s[0] == '-' <==> i < 0)
      && var digits := if i < 0 then s[1..] else s;
         AllDigits(digits) && ParseDigits(digits) == (if i < 0 then -i else i)
  {
    var s := IntToString(i);
    if i < 0 {
      ParseNatToString(-i);
      assert s[1..] == NatToString(-i);
    } else {
      ParseNatToString(i);
      assert IsDigit(s[0]);
    }
  }

  /** Distinct numbers have distinct decimal texts. */
  lemma NatToStringInjective(a: nat, b: nat)
    requires NatToString(a) == NatToString(b)
    ensures a == b
  {
    ParseNatToString(a);
    ParseNatToString(b);
  }
}

=== FILE: disk.dfy ===
/**
 * The storage directory tree as the routes see it through `os.path`:
 * regular files (blobs) and directories, both addressed by paths under the
 * storage root.
 */
module Disk {
  import opened Common

  /** `os.path.join(dir, name)`: joining an empty name names the directory itself. */
  function ChildPath(dir: Path, name: string): (p: Path)
    ensures |dir| <= |p| <= |dir| + 1 && p[..|dir|] == dir
    ensures p == dir <==> name == ""
    ensures name != "" ==> p[|dir|] == name
  {
    if name == "" then dir else dir + [name]
  }

  /** Every directory `os.makedirs(p)` creates or requires: all non-empty prefixes of `p`. */
  function Prefixes(p: Path): (r: set<Path>)
    ensures forall q :: q in r <==> exists i :: 1 <= i <= |p| && q == p[..i]
  {
    set i | 1 <= i <= |p| :: p[..i]
  }

  /** `os.makedirs(p, exist_ok=True)` succeeds unless a regular file sits on the way. */
  predicate CanMakeDirs(blobs: map<Path, Bytes>, p: Path) {
    forall i :: 1 <= i <= |p| ==> p[..i] !in blobs
  }

  /** Making a child directory makes its parent's directories plus the child itself. */
  lemma PrefixesOfChild(dir: Path, name: string)
    ensures Prefixes(dir + [name]) == Prefixes(dir) + {dir + [name]}
  {
    var p := dir + [name];
    forall q | q in Prefixes(p) ensures q in Prefixes(dir) + {p} {
      var i :| 1 <= i <= |p| && q == p[..i];
      if i <= |dir| {
        assert q == dir[..i];
      } else {
        assert q == p[..|p|] == p;
      }
    }
    forall q | q in Prefixes(dir) ensures q in Prefixes(p) {
      var i :| 1 <= i <= |dir| && q == dir[..i];
      assert q == p[..i];
    }
    assert p == p[..|p|];
  }

  /**
   * makedirs of a child succeeds exactly when makedirs of its parent does and
   * no regular file has the child's own path.
   */
  lemma CanMakeDirsChild(blobs: map<Path, Bytes>, dir: Path, name: string)
    ensures CanMakeDirs(blobs, dir + [name]) <==> CanMakeDirs(blobs, dir) && dir + [name] !in blobs
  {
    var p := dir + [name];
    assert p[..|p|] == p;
    forall i | 1 <= i <= |dir| ensures p[..i] == dir[..i] { }
  }

  /** After makedirs, the target and every ancestor of it exist. */
  lemma MadeDirsExist(blobs: map<Path, Bytes>, dirs: set<Path>, p: Path)
    ensures forall i :: 1 <= i <= |p| ==> PathExists(blobs, dirs + Prefixes(p), p[..i])
  {
  }

  /** `os.path.exists`: true for regular files and directories alike. */
  predicate PathExists(blobs: map<Path, Bytes>, dirs: set<Path>, p: Path) {
    p in blobs || p in dirs
  }

  /** The names `n` for which `os.path.exists(os.path.join(dir, n))` holds. */
  function Occupied(blobs: map<Path, Bytes>, dirs: set<Path>, dir: Path): set<string> {
    (set p | p in blobs.Keys + dirs && |p| == |dir| + 1 && p[..|dir|] == dir && p[|dir|] != "" :: p[|dir|])
    + (if PathExists(blobs, dirs, dir) then {""} else {})
  }

  /** The occupied set answers exactly the existence test the upload loop makes. */
  lemma OccupiedMeansExists(blobs: map<Path, Bytes>, dirs: set<Path>, dir: Path, n: string)
    ensures n in Occupied(blobs, dirs, dir) <==> PathExists(blobs, dirs, ChildPath(dir, n))
  {
    if n != "" {
      var p := dir + [n];
      assert p[..|dir|] == dir && p[|dir|] == n;
      if n in Occupied(blobs, dirs, dir) {
        var q :| q in blobs.Keys + dirs && |q| == |dir| + 1 && q[..|dir|] == dir && q[|dir|] != "" && q[|dir|] == n;
        assert q == p;
      }
    }
  }
}

=== FILE: mime.dfy ===
/**
 * Classification of files by MIME type and extension
 * (backend/app.py, is_streamable_file and is_safe_executable).
 */
module Mime {
  import opened Common

  /** MIME type prefixes that the browser player can show inline. */
  const StreamablePrefixes: seq<string> := [
    "video/", "audio/", "image/",
    "application/pdf",
    "text/", "application/json",
    "application/javascript",
    "application/xml"
  ]

  /** Extensions of scripts the execution feature accepts. */
  const SafeExtensions: seq<string> := [".py", ".sh", ".js", ".php", ".rb", ".pl", ".java"]

  predicate IsSuffix(suffix: string, s: string) {
    |suffix| <= |s| && s[|s| - |suffix|..] == suffix
  }

  /** `any(s.startswith(p) for p in prefixes)`. */
  function StartsWithAny(s: string, prefixes: seq<string>): (r: bool)
    ensures r <==> exists i :: 0 <= i < |prefixes| && prefixes[i] <= s
  {
    if prefixes == [] then false
    else prefixes[0] <= s || StartsWithAny(s, prefixes[1..])
  }

  /** `any(s.endswith(x) for x in suffixes)`. */
  function EndsWithAny(s: string, suffixes: seq<string>): (r: bool)
    ensures r <==> exists i :: 0 <= i < |suffixes| && IsSuffix(suffixes[i], s)
  {
    if suffixes == [] then false
    else IsSuffix(suffixes[0], s) || EndsWithAny(s, suffixes[1..])
  }

  /**
   * is_streamable_file: false for a missing or empty type, otherwise true
   * exactly when the type starts with one of the eight listed prefixes.
   */
  function IsStreamable(mime: Option<string>): (r: bool)
    ensures !StrTruthy(mime) ==> !r
    ensures StrTruthy(mime) ==>
      (r <==> exists i :: 0 <= i < |StreamablePrefixes| && StreamablePrefixes[i] <= mime.value)
  {
    StrTruthy(mime) && StartsWithAny(mime.value, StreamablePrefixes)
  }

  /** ASCII case folding of one character, as `str.lower` does on ASCII. */
  function LowerChar(c: char): char {
    if 'A' <= c <= 'Z' then (c as int + 32) as char else c
  }

  function Lower(s: string): (r: string)
    ensures |r| == |s| && forall i :: 0 <= i < |s| ==> r[i] == LowerChar(s[i])
  {
    seq(|s|, i requires 0 <= i < |s| => LowerChar(s[i]))
  }

  /** is_safe_executable: the lower-cased path ends with one of the script extensions. */
  function IsSafeExecutable(path: string): (r: bool)
    ensures r <==> exists i :: 0 <= i < |SafeExtensions| && IsSuffix(SafeExtensions[i], Lower(path))
  {
    EndsWithAny(Lower(path), SafeExtensions)
  }

  /** The executable check ignores the case of the path. */
  lemma SafeExecutableIgnoresCase(path: string)
    ensures IsSafeExecutable(Lower(path)) == IsSafeExecutable(path)
  {
    assert Lower(Lower(path)) == Lower(path);
  }

  /** A type outside the eight families, such as the upload fallback type, is not streamable. */
  lemma OctetStreamNotStreamable()
    ensures !IsStreamable(Some("application/octet-stream"))
  {
    var s := "application/octet-stream";
    forall i | 0 <= i < |StreamablePrefixes| ensures !(StreamablePrefixes[i] <= s) {
      if i == 1 { assert StreamablePrefixes[i][1] != s[1]; }
      else if i == 3 { assert StreamablePrefixes[i][12] != s[12]; }
      else if i == 5 || i == 6 || i == 7 { assert StreamablePrefixes[i][12] != s[12]; }
      else { assert StreamablePrefixes[i][0] != s[0]; }
    }
  }
}

=== FILE: names.dfy ===
/**
 * File and folder names: Python's `os.path.splitext`, `str.strip`, and the
 * upload route's loop that renames a file until its name is free in the
 * target directory (backend/app.py, upload_file).
 */
module Names {
  import opened Decimal

  /** No occurrence of `c` in `s` after index `k`. */
  predicate NoneAfter(s: string, c: char, k: int) {
    forall i :: k < i < |s| && 0 <= i ==> s[i] != c
  }

  /** Index of the last occurrence of `c` in `s`, or -1 (Python's `str.rfind`). */
  function LastIndex(s: string, c: char): (k: int)
    ensures -1 <= k < |s|
    ensures k >= 0 ==> s[k] == c
    ensures NoneAfter(s, c, k)
    decreases |s|
  {
    if s == [] then -1
    else if s[|s| - 1] == c then |s| - 1
    else LastIndex(s[..|s| - 1], c)
  }

  /** Every character of `s` in [lo, hi) is a dot. */
  predicate DotsOnly(s: string, lo: int, hi: int) {
    forall i :: lo <= i < hi && 0 <= i < |s| ==> s[i] == '.'
  }

  /** A possible result of splitext's second half: empty, or a dot followed by no dot or separator. */
  predicate IsExtension(e: string) {
    e == "" || (e[0] == '.' && forall i :: 0 < i < |e| ==> e[i] != '.' && e[i] != '/')
  }

  /**
   * `os.path.splitext` on POSIX: the extension runs from the last '.' of the
   * last path component, unless everything before that '.' in the component
   * is dots (".bashrc" has no extension).
   */
  function Splitext(p: string): (r: (string, string))
    ensures r.0 + r.1 == p
    ensures IsExtension(r.1)
    ensures r.1 != "" <==> !DotsOnly(p, LastIndex(p, '/') + 1, LastIndex(p, '.')) && LastIndex(p, '.') > LastIndex(p, '/')
  {
    var sep := LastIndex(p, '/');
    var dot := LastIndex(p, '.');
    if dot > sep && !DotsOnly(p, sep + 1, dot) then
      var ext := p[dot..];
      assert IsExtension(ext) by {
        forall i | 0 < i < |ext| ensures ext[i] != '.' && ext[i] != '/' {
          assert ext[i] == p[dot + i];
        }
      }
      (p[..dot], ext)
    else (p, "")
  }

  /** The k-th renamed candidate, `f"{base_name}_{counter}{extension}"`. */
  function Candidate(base: string, ext: string, k: nat): string {
    base + "_" + NatToString(k) + ext
  }

  /** The name tried on the k-th test of the loop: the name itself, then candidates 1, 2, ... */
  function Attempt(name: string, k: nat): string {
    if k == 0 then name else Candidate(Splitext(name).0, Splitext(name).1, k)
  }

  lemma CandidateInjective(base: string, ext: string, j: nat, k: nat)
    requires Candidate(base, ext, j) == Candidate(base, ext, k)
    ensures j == k
  {
    var cj, ck := Candidate(base, ext, j), Candidate(base, ext, k);
    var dj, dk := NatToString(j), NatToString(k);
    assert |dj| == |dk|;
    assert dj == cj[|base| + 1..|base| + 1 + |dj|];
    assert dk == ck[|base| + 1..|base| + 1 + |dk|];
    NatToStringInjective(j, k);
  }

  /** No two tests of the loop look at the same name. */
  lemma AttemptInjective(name: string, i: nat, j: nat)
    requires i != j
    ensures Attempt(name, i) != Attempt(name, j)
  {
    var (base, ext) := Splitext(name);
    if i > 0 && j > 0 {
      if Attempt(name, i) == Attempt(name, j) {
        CandidateInjective(base, ext, i, j);
      }
    } else {
      // the original name is shorter than every candidate
      assert |Attempt(name, i)| != |Attempt(name, j)|;
    }
  }

  /**
   * The collision loop of upload_file: keep `name` if it is free, otherwise
   * try `base_1.ext`, `base_2.ext`, ... and stop at the first free one.
   * `taken` is the set of names that already exist in the target directory;
   * `renames` is the number of times the loop body ran (`counter - 1`).
   */
  method ResolveCollision(taken: set<string>, name: string) returns (filename: string, renames: nat)
    ensures filename !in taken
    ensures filename == Attempt(name, renames)
    ensures forall k :: 0 <= k < renames ==> Attempt(name, k) in taken
    ensures renames <= |taken|
  {
    var parts := Splitext(name);
    var base, extension := parts.0, parts.1;
    filename := name;
    var counter := 1;
    ghost var tried: set<string> := {};
    while filename in taken
      invariant counter >= 1
      invariant filename == Attempt(name, counter - 1)
      invariant forall k :: 0 <= k < counter - 1 ==> Attempt(name, k) in taken
      invariant forall k :: k >= counter - 1 ==> Attempt(name, k) !in tried
      invariant tried <= taken && |tried| == counter - 1
      decreases |taken| - |tried|
    {
      forall k | k >= counter ensures Attempt(name, k) != filename {
        AttemptInjective(name, k, counter - 1);
      }
      tried := tried + {filename};
      SubsetCardinality(tried, taken);
      filename := Candidate(base, extension, counter);
      counter := counter + 1;
    }
    renames := counter - 1;
    SubsetCardinality(tried, taken);
  }

  lemma SubsetCardinality<T>(a: set<T>, b: set<T>)
    requires a <= b
    ensures |a| <= |b|
  {
    assert b == a + (b - a);
  }

  /** The characters `str.strip()` removes: those for which `str.isspace()` holds. */
  predicate IsWhitespace(c: char) {
    var n := c as int;
    || 0x09 <= n <= 0x0D || 0x1C <= n <= 0x20
    || n == 0x85 || n == 0xA0 || n == 0x1680 || 0x2000 <= n <= 0x200A
    || n == 0x2028 || n == 0x2029 || n == 0x202F || n == 0x205F || n == 0x3000
  }

  /** Number of whitespace characters at the start of `s`. */
  function LeadingSpace(s: string): (n: nat)
    ensures n <= |s|
    ensures forall i :: 0 <= i < n ==> IsWhitespace(s[i])
    ensures n < |s| ==> !IsWhitespace(s[n])
    decreases |s|
  {
    if s == [] || !IsWhitespace(s[0]) then 0 else 1 + LeadingSpace(s[1..])
  }

  /** Number of whitespace characters at the end of `s`. */
  function TrailingSpace(s: string): (n: nat)
    ensures n <= |s|
    ensures forall i :: |s| - n <= i < |s| ==> IsWhitespace(s[i])
    ensures n < |s| ==> !IsWhitespace(s[|s| - 1 - n])
    decreases |s|
  {
    if s == [] || !IsWhitespace(s[|s| - 1]) then 0 else 1 + TrailingSpace(s[..|s| - 1])
  }

  /** `r` is `s` with only whitespace removed before offset `lo` and after `r`. */
  predicate StrippedAt(s: string, r: string, lo: int) {
    0 <= lo <= |s| - |r| && s[lo..lo + |r|] == r &&
    (forall i :: 0 <= i < lo ==> IsWhitespace(s[i])) &&
    (forall i :: lo + |r| <= i < |s| ==> IsWhitespace(s[i]))
  }

  /** Python's `str.strip()` with no argument: removes `str.isspace()` characters at both ends. */
  function Strip(s: string): (r: string)
    ensures exists lo :: StrippedAt(s, r, lo)
    ensures r != [] ==> !IsWhitespace(r[0]) && !IsWhitespace(r[|r| - 1])
    ensures r == [] <==> forall i :: 0 <= i < |s| ==> IsWhitespace(s[i])
  {
    var lo := LeadingSpace(s);
    if lo == |s| then
      assert StrippedAt(s, [], |s|);
      []
    else
      var hi := |s| - TrailingSpace(s);
      assert lo < hi;
      var r := s[lo..hi];
      assert StrippedAt(s, r, lo);
      r
  }

  /** A name with no whitespace at either end is its own strip. */
  lemma StripClean(s: string)
    requires s != [] && !IsWhitespace(s[0]) && !IsWhitespace(s[|s| - 1])
    ensures Strip(s) == s
  {
    assert LeadingSpace(s) == 0 && TrailingSpace(s) == 0;
    assert s[0..|s|] == s;
  }

  /** Stripping twice is stripping once. */
  lemma StripIdempotent(s: string)
    ensures Strip(Strip(s)) == Strip(s)
  {
    var r := Strip(s);
    if r != [] {
      StripClean(r);
    }
  }
}

=== FILE: ranges.dfy ===
/**
 * HTTP Range support of the streaming route (backend/app.py, stream_file):
 * the `bytes=(\d+)-(\d*)` search over the Range header, the Content-Range
 * and Content-Length arithmetic, and the two chunked reader loops.
 */
module Ranges {
  import opened Common
  import opened Decimal

  /** Bytes requested from the file per read. */
  const ChunkSize: nat := 4096

  /** The two groups of the Range regex: a start and an optional end. */
  datatype RangeSpec = RangeSpec(start: nat, end: Option<nat>)

  /** How the response body is framed. */
  datatype Framing =
    | Whole                                        // 200, Content-Length = file size
    | Partial(start: int, end: int, length: int)   // 206, Content-Range and Content-Length

  /** Length of the maximal run of ASCII digits starting at `i` (greedy `\d*`). */
  function DigitRun(h: string, i: nat): (n: nat)
    requires i <= |h|
    ensures i + n <= |h|
    ensures forall k :: i <= k < i + n ==> IsDigit(h[k])
    ensures i + n < |h| ==> !IsDigit(h[i + n])
    decreases |h| - i
  {
    if i < |h| && IsDigit(h[i]) then 1 + DigitRun(h, i + 1) else 0
  }

  /** The regex anchored at offset `i`: "bytes=", digits, '-', optional digits. */
  function MatchAt(h: string, i: nat): Option<RangeSpec>
    requires i <= |h|
  {
    if i + 6 <= |h| && h[i..i + 6] == "bytes=" then
      var a := i + 6;
      var n1 := DigitRun(h, a);
      if n1 >= 1 && a + n1 < |h| && h[a + n1] == '-' then
        var b := a + n1 + 1;
        var n2 := DigitRun(h, b);
        assert AllDigits(h[a..a + n1]) && AllDigits(h[b..b + n2]);
        var end := if n2 == 0 then None else Some(ParseDigits(h[b..b + n2]));
        Some(RangeSpec(ParseDigits(h[a..a + n1]), end))
      else None
    else None
  }

  /** `re.search`: the leftmost offset at which the regex matches. */
  function Search(h: string, i: nat): (m: Option<RangeSpec>)
    requires i <= |h|
    ensures m.None? ==> forall j :: i <= j <= |h| ==> MatchAt(h, j).None?
    ensures m.Some? ==>
      exists j :: i <= j <= |h| && m == MatchAt(h, j) && forall k :: i <= k < j ==> MatchAt(h, k).None?
    decreases |h| - i
  {
    var here := MatchAt(h, i);
    if here.Some? then here
    else if i == |h| then None
    else
      var m := Search(h, i + 1);
      assert m.Some? ==> exists j :: i <= j <= |h| && m == MatchAt(h, j) && forall k :: i <= k < j ==> MatchAt(h, k).None?
        by {
          if m.Some? {
            var j :| i + 1 <= j <= |h| && m == MatchAt(h, j) && forall k :: i + 1 <= k < j ==> MatchAt(h, k).None?;
            assert forall k :: i <= k < j ==> MatchAt(h, k).None?;
          }
        }
      m
  }

  /**
   * The framing stream_file chooses: a present, non-empty header always gives
   * a partial response; start defaults to 0 when the regex does not match,
   * end defaults to size - 1 when its group is empty, and end is not clamped.
   */
  function Frame(range: Option<string>, size: int): (f: Framing)
    ensures f.Partial? <==> StrTruthy(range)
    ensures f.Partial? ==> f.start >= 0 && f.length == f.end - f.start + 1
    ensures f.Partial? && Search(range.value, 0).None? ==> f == Partial(0, size - 1, size)
  {
    if !StrTruthy(range) then Whole
    else
      var m := Search(range.value, 0);
      var start := if m.Some? then m.value.start else 0;
      var end := if m.Some? && m.value.end.Some? then m.value.end.value else size - 1;
      Partial(start, end, end - start + 1)
  }

  /** The Content-Range header value, `f'bytes {start}-{end}/{size}'`. */
  function ContentRange(start: int, end: int, size: int): string {
    "bytes " + IntToString(start) + "-" + IntToString(end) + "/" + IntToString(size)
  }

  lemma {:induction false} DigitRunOf(h: string, i: nat, d: string)
    requires i + |d| <= |h| && h[i..i + |d|] == d && AllDigits(d)
    requires i + |d| == |h| || !IsDigit(h[i + |d|])
    ensures DigitRun(h, i) == |d|
    decreases |d|
  {
    if |d| > 0 {
      assert h[i] == d[0];
      assert h[i + 1..i + 1 + |d[1..]|] == d[1..];
      DigitRunOf(h, i + 1, d[1..]);
    }
  }

  /** The header "bytes=A-B", for digit strings A (non-empty) and B, matches at its start. */
  lemma MatchParts(h: string, a: string, b: string)
    requires |a| >= 1 && AllDigits(a) && AllDigits(b)
    requires h == "bytes=" + a + "-" + b
    ensures Search(h, 0) == Some(RangeSpec(ParseDigits(a), if b == "" then None else Some(ParseDigits(b))))
  {
    var j := 7 + |a|;
    assert |h| == j + |b|;
    assert h[0..6] == "bytes=";
    assert h[6..6 + |a|] == a;
    assert h[6 + |a|] == '-';
    DigitRunOf(h, 6, a);
    assert h[j..j + |b|] == b;
    DigitRunOf(h, j, b);
    assert MatchAt(h, 0) == Some(RangeSpec(ParseDigits(a), if b == "" then None else Some(ParseDigits(b))));
  }

  /** `Range: bytes=S-E` gives Content-Range "bytes S-E/size" and Content-Length E-S+1. */
  lemma ExplicitRangeFraming(s: nat, e: nat, size: int)
    ensures Frame(Some("bytes=" + NatToString(s) + "-" + NatToString(e)), size) == Partial(s, e, e - s + 1)
  {
    MatchParts("bytes=" + NatToString(s) + "-" + NatToString(e), NatToString(s), NatToString(e));
    ParseNatToString(s);
    ParseNatToString(e);
  }

  /** `Range: bytes=S-` runs to the last byte: end = size - 1, length = size - S. */
  lemma OpenRangeFraming(s: nat, size: int)
    ensures Frame(Some("bytes=" + NatToString(s) + "-"), size) == Partial(s, size - 1, size - s)
  {
    assert "bytes=" + NatToString(s) + "-" == "bytes=" + NatToString(s) + "-" + "";
    MatchParts("bytes=" + NatToString(s) + "-", NatToString(s), "");
    ParseNatToString(s);
  }

  lemma DecimalTexts()
    ensures NatToString(0) == "0" && NatToString(99) == "99" && NatToString(1000) == "1000"
  {
    assert NatToString(9) == "9";
    assert NatToString(1) == "1";
    assert NatToString(10) == "10";
    assert NatToString(100) == "100";
  }

  /** bytes=0-99 on a 1000-byte file: 100 bytes, Content-Range "bytes 0-99/1000". */
  lemma FirstHundredBytes()
    ensures Frame(Some("bytes=0-99"), 1000) == Partial(0, 99, 100)
    ensures ContentRange(0, 99, 1000) == "bytes 0-99/1000"
  {
    DecimalTexts();
    var h := "bytes=" + NatToString(0) + "-" + NatToString(99);
    assert h == "bytes=0-99";
    ExplicitRangeFraming(0, 99, 1000);
    FirstHundredContentRange();
  }

  /** The Content-Range text for bytes 0 to 99 of a 1000-byte file. */
  lemma FirstHundredContentRange()
    ensures ContentRange(0, 99, 1000) == "bytes 0-99/1000"
  {
    DecimalTexts();
  }

  /** `f.read(n)` at offset `pos` on a regular file: n bytes, fewer at end of file, none past it. */
  function ReadAt(content: Bytes, pos: nat, n: nat): (chunk: Bytes)
    ensures |chunk| == (if pos < |content| then Min(n, |content| - pos) else 0)
    ensures pos < |content| && n > 0 ==> |chunk| > 0
    ensures forall i :: 0 <= i < |chunk| ==> pos + i < |content| && chunk[i] == content[pos + i]
  {
    if pos < |content| then content[pos..Min(pos + n, |content|)] else []
  }

  /**
   * The bytes a reader positioned at `start` delivers before it has read
   * `length` bytes or reached end of file.
   */
  function RangeBytes(content: Bytes, start: nat, length: int): (r: Bytes)
    ensures length <= 0 ==> r == []
    ensures length > 0 ==> |r| <= length
    ensures forall i :: 0 <= i < |r| ==> start + i < |content| && r[i] == content[start + i]
    ensures length > 0 && start + length <= |content| ==> |r| == length
    ensures length > 0 && start < |content| < start + length ==> |r| == |content| - start
  {
    if start < |content| && length > 0 then content[start..Min(start + length, |content|)] else []
  }

  /**
   * generate_range: seek to `start`, then read min(4096, remaining) bytes at a
   * time, stopping when `remaining` reaches 0 or a read comes back empty.
   */
  method ReadRange(content: Bytes, start: nat, length: int) returns (chunks: seq<Bytes>)
    ensures Flatten(chunks) == RangeBytes(content, start, length)
    ensures forall i :: 0 <= i < |chunks| ==> 0 < |chunks[i]| <= ChunkSize
  {
    chunks := [];
    var pos := start;
    var remaining := length;
    while remaining > 0
      invariant start <= pos && remaining == length - (pos - start)
      invariant pos - start <= (if length > 0 then length else 0)
      invariant pos > start ==> pos <= |content|
      invariant Flatten(chunks) == RangeBytes(content, start, pos - start)
      invariant forall i :: 0 <= i < |chunks| ==> 0 < |chunks[i]| <= ChunkSize
      decreases remaining
    {
      var chunk := ReadAt(content, pos, Min(ChunkSize, remaining));
      if chunk == [] {
        // end of file: every byte from start to the end has been delivered
        assert RangeBytes(content, start, pos - start) == RangeBytes(content, start, length);
        break;
      }
      FlattenAppend(chunks, chunk);
      assert RangeBytes(content, start, pos - start) + chunk == RangeBytes(content, start, pos + |chunk| - start);
      chunks := chunks + [chunk];
      remaining := remaining - |chunk|;
      pos := pos + |chunk|;
    }
  }

  /** generate: read 4096 bytes at a time until a read comes back empty. */
  method ReadAll(content: Bytes) returns (chunks: seq<Bytes>)
    ensures Flatten(chunks) == content
    ensures forall i :: 0 <= i < |chunks| ==> 0 < |chunks[i]| <= ChunkSize
    ensures forall i :: 0 <= i < |chunks| - 1 ==> |chunks[i]| == ChunkSize
  {
    chunks := [];
    var pos := 0;
    while true
      invariant pos <= |content|
      invariant Flatten(chunks) == content[..pos]
      invariant forall i :: 0 <= i < |chunks| ==> 0 < |chunks[i]| <= ChunkSize
      invariant forall i :: 0 <= i < |chunks| - 1 ==> |chunks[i]| == ChunkSize
      invariant chunks != [] && |chunks[|chunks| - 1]| < ChunkSize ==> pos == |content|
      decreases |content| - pos
    {
      var chunk := ReadAt(content, pos, ChunkSize);
      if chunk == [] {
        break;
      }
      FlattenAppend(chunks, chunk);
      assert content[..pos] + chunk == content[..pos + |chunk|];
      chunks := chunks + [chunk];
      pos := pos + |chunk|;
    }
    assert content[..pos] == content;
  }

  /**
   * The end of a range is not clamped to the file: for an end at or past the
   * last byte, the announced Content-Length exceeds the bytes delivered
   * whenever the range starts inside the file and ends beyond it.
   */
  lemma UnclampedEndOverstatesLength(content: Bytes, s: nat, e: nat)
    requires s < |content| <= e
    ensures var f := Frame(Some("bytes=" + NatToString(s) + "-" + NatToString(e)), |content|);
      f.length == e - s + 1 && |RangeBytes(content, s, f.length)| == |content| - s < f.length
  {
    ExplicitRangeFraming(s, e, |content|);
  }
}

=== FILE: scenarios.dfy ===
/**
 * Properties that relate several routes: the password gate and the
 * redirect that opens it, what share tokens grant when streaming, and
 * request sequences the repository's upload test and share flow exercise.
 */
module Scenarios {
  import opened Common
  import opened Names
  import opened Tables
  import opened Disk
  import opened Storage

  /** After a correct password, the redirect target no longer shows the password page. */
  lemma RedirectOpensShare(s: Store, token: string, candidate: Option<string>)
    requires s.VerifySharePassword(token, candidate).Redirect?
    requires !Expired(s.shares[token], s.now)
    ensures s.ViewShare(token, Some("1")) != PasswordPrompt
    ensures s.ViewShare(token, Some("1")) !in {ShareNotFound, ShareExpired}
  {
  }

  /** Any non-empty `authenticated` value opens the gate, whether or not a password was checked. */
  lemma AuthenticatedFlagSkipsPassword(s: Store, token: string, flag: string)
    requires token in s.shares && !Expired(s.shares[token], s.now) && flag != ""
    ensures s.ViewShare(token, Some(flag)) != PasswordPrompt
    ensures s.ViewShare(token, Some(flag)) == s.ViewShare(token, Some("1"))
  {
  }

  /**
   * Streaming with a share token needs only a live share of that very file:
   * neither the share's password nor its can_download flag is consulted, and
   * any credentials sent alongside are ignored.
   */
  lemma ShareTokenStreams(s: Store, fileId: FileId, token: string, jwt: Option<string>, bearer: Option<string>)
    requires token != "" && token in s.shares && s.shares[token].fileId == Some(fileId)
    requires !Expired(s.shares[token], s.now) && fileId in s.files
    ensures s.Authorize(fileId, Some(token), jwt, bearer) == Granted(fileId)
  {
  }

  /** A share token never opens another file, whatever else the request carries. */
  lemma ShareTokenIsScoped(s: Store, fileId: FileId, token: string, jwt: Option<string>, bearer: Option<string>)
    requires token != "" && (token !in s.shares || s.shares[token].fileId != Some(fileId))
    ensures s.Authorize(fileId, Some(token), jwt, bearer) == Denied(403)
  {
  }

  /** The storage_quota column's default: 1 GiB. */
  const DefaultQuota: int := 1073741824

  /**
   * The repository's upload test: a fresh account uploads teste_upload.txt
   * with folder_id 0 and then lists folder_id 0, where the file shows up
   * under its own name; the root listing (no folder_id) does not show it.
   */
  method UploadThenList(env: Oracles, content: Bytes) returns (id: FileId, atZero: Listing, atRoot: Listing)
    requires env.secureFilename("teste_upload.txt") == "teste_upload.txt"
    requires |content| <= DefaultQuota
    ensures id in atZero.files && atZero.files[id].name == "teste_upload.txt"
    ensures atZero.files[id].size == |content|
    ensures id !in atRoot.files
  {
    var s := new Store(map[1 := User("tester", DefaultQuota)], env, 0);
    assert s.Usage(1) == 0;
    FreshTree(["tester"]);
    assert s.UploadDir(1, Some(0)) == ["tester"];
    var up := s.UploadFile(1, Some(Upload("teste_upload.txt", content)), Some(0));
    assert up.Ok?;
    id := up.value.fileId;
    assert up.value.filename == "teste_upload.txt" by {
      var k: nat :| up.value.filename == Names.Attempt("teste_upload.txt", k)
                    && forall j :: 0 <= j < k ==> Names.Attempt("teste_upload.txt", j) in {""};
      assert Names.Attempt("teste_upload.txt", 0) !in {""};
    }
    assert s.files[id].folderId == Some(0) && s.files[id].userId == 1;
    var zero := s.ListFiles(1, Some(0));
    var root := s.ListFiles(1, None);
    atZero, atRoot := zero.value, root.value;
  }

  /** Right after makedirs in an empty tree, only the directory's own "" entry is occupied. */
  lemma FreshTree(dir: Path)
    requires |dir| == 1
    ensures CanMakeDirs(map[], dir)
    ensures Occupied(map[], {} + Prefixes(dir), dir) == {""}
  {
    assert Prefixes(dir) == {dir} by {
      assert dir[..1] == dir;
    }
  }

  /** A store with one account, "tester", that has uploaded one file to its top-level directory. */
  method OneUpload(env: Oracles, name: string, content: Bytes) returns (s: Store, id: FileId)
    requires name != "" && |content| <= DefaultQuota
    ensures fresh(s) && s.Valid() && s.env == env && s.now == 0 && s.shares == map[]
    ensures s.users == map[1 := User("tester", DefaultQuota)]
    ensures id == 1 && s.OwnsFile(1, id) && s.files[id].originalName == name && s.files[id].size == |content|
    ensures s.files[id].folderId == None && s.Usage(1) == |content|
    ensures s.files[id].path == ["tester", s.files[id].filename]
    ensures s.blobs == map[s.files[id].path := content] && s.dirs == {["tester"]}
    ensures env.secureFilename(name) != "" ==> s.files[id].filename == env.secureFilename(name)
  {
    s := new Store(map[1 := User("tester", DefaultQuota)], env, 0);
    assert s.Usage(1) == 0;
    FreshTree(["tester"]);
    assert s.UploadDir(1, None) == ["tester"];
    var up := s.UploadFile(1, Some(Upload(name, content)), None);
    id := up.value.fileId;
    var sane := env.secureFilename(name);
    if sane != "" {
      var k: nat :| up.value.filename == Names.Attempt(sane, k)
                    && forall j :: 0 <= j < k ==> Names.Attempt(sane, j) in {""};
      assert Names.Attempt(sane, 0) !in {""};
    }
  }

  /** The same name uploaded twice to the top-level directory of a fresh account. */
  method TwoUploads(env: Oracles, first: Bytes, second: Bytes) returns (s: Store, a: FileId, b: Uploaded)
    requires env.secureFilename("report.pdf") == "report.pdf"
    requires |first| + |second| <= DefaultQuota
    ensures fresh(s) && s.Valid()
    ensures a != b.fileId && a in s.files && b.fileId in s.files
    ensures s.files[a].filename == "report.pdf" && b.filename != "report.pdf" && s.files[b.fileId].filename == b.filename
    ensures s.files[a].originalName == "report.pdf" && s.files[b.fileId].originalName == "report.pdf"
    ensures s.files[a].size == |first| && s.files[b.fileId].size == |second|
    ensures s.files[a].userId == 1 && s.files[b.fileId].userId == 1
    ensures s.files[a].folderId == None && s.files[b.fileId].folderId == None
  {
    s, a := OneUpload(env, "report.pdf", first);
    var dir: Path := ["tester"];
    assert s.UploadDir(1, None) == dir;
    assert dir[..1] == dir;
    assert CanMakeDirs(s.blobs, dir);
    ghost var old_a := s.files[a];
    assert old_a.path == dir + ["report.pdf"] && old_a.path in s.blobs;
    var r2 := s.UploadFile(1, Some(Upload("report.pdf", second)), None);
    b := r2.value;
    assert dir + [b.filename] != old_a.path;
    assert a != b.fileId && s.files[a] == old_a;
  }

  /** Uploading the same name twice keeps both files: the second gets a name not yet in the directory. */
  method DuplicateUploadKeepsBoth(env: Oracles, first: Bytes, second: Bytes) returns (a: FileId, b: Uploaded, listed: Listing)
    requires env.secureFilename("report.pdf") == "report.pdf"
    requires |first| + |second| <= DefaultQuota
    ensures b.filename != "report.pdf" && a != b.fileId
    ensures a in listed.files && b.fileId in listed.files
    ensures listed.files[a].name == "report.pdf" && listed.files[b.fileId].name == "report.pdf"
    ensures listed.files[a].size == |first| && listed.files[b.fileId].size == |second|
  {
    var s;
    s, a, b := TwoUploads(env, first, second);
    var l := s.ListFiles(1, None);
    listed := l.value;
  }

  /**
   * A password-protected share of a file: the page first asks for the
   * password, the right password redirects to a view of the file, and the
   * share token streams the file even though the share forbids downloads.
   */
  method PasswordShareFlow(env: Oracles, content: Bytes, token: string, salt: string)
    returns (before: ShareView, check: PasswordCheck, after: ShareView, streamed: Access)
    requires BcryptSound(env) && env.hashPassword("s3cret", salt) != ""
    requires |content| <= DefaultQuota && token != ""
    ensures before == PasswordPrompt
    ensures check == Redirect("/share/" + token + "?authenticated=1")
    ensures after.FileView? && after.name == "clip.mp4" && !after.canDownload
    ensures streamed.Granted?
  {
    var s, id := OneUpload(env, "clip.mp4", content);
    var req := ShareRequest(Some(id), None, None, false, false, false, Some("s3cret"), None);
    var created := s.CreateShare(1, req, token, salt);
    before := s.ViewShare(token, None);
    check := s.VerifySharePassword(token, Some("s3cret"));
    after := s.ViewShare(token, Some("1"));
    streamed := s.Authorize(id, Some(token), None, None);
  }

  /** A share created to last one day opens now and answers 410 once the day has passed. */
  method ShareExpires(env: Oracles, content: Bytes, token: string, salt: string)
    returns (live: ShareView, stale: ShareView, streamed: Access)
    requires |content| <= DefaultQuota && token != ""
    ensures live.FileView? && stale == ShareExpired && streamed == Denied(410)
  {
    var s, id := OneUpload(env, "notes.txt", content);
    var req := ShareRequest(Some(id), None, None, true, false, true, None, Some(1));
    var created := s.CreateShare(1, req, token, salt);
    live := s.ViewShare(token, None);
    s.Advance(SecondsPerDay + 1);
    stale := s.ViewShare(token, None);
    streamed := s.Authorize(id, Some(token), None, None);
  }

  /**
   * Deleting a shared file leaves its share behind with no file id: the
   * share page then fails with 500, and streaming the deleted id through the
   * token answers 403, since the share no longer names that file.
   */
  method DeleteLeavesShare(env: Oracles, content: Bytes, token: string, salt: string)
    returns (status: int, view: ShareView, streamed: Access)
    requires |content| <= DefaultQuota && token != ""
    ensures status == 200 && view == ViewFailed && streamed == Denied(403)
  {
    var s, id := OneUpload(env, "notes.txt", content);
    var req := ShareRequest(Some(id), None, None, true, false, true, None, None);
    var created := s.CreateShare(1, req, token, salt);
    status := s.DeleteFile(1, id);
    view := s.ViewShare(token, None);
    streamed := s.Authorize(id, Some(token), None, None);
  }

  /**
   * Two nested folders: the inner one's breadcrumb names both, top first,
   * and creating the inner one again under the same parent answers 409.
   */
  method NestedFolders(env: Oracles) returns (outer: FolderId, inner: FolderId, listed: Listing, again: Result<FolderId>)
    ensures listed.path == [Crumb(outer, "docs"), Crumb(inner, "drafts")]
    ensures again == Err(409)
  {
    var s := new Store(map[1 := User("tester", DefaultQuota)], env, 0);
    StripClean("docs");
    StripClean("drafts");
    assert !SiblingExists(s.folders, 1, "docs", None);
    assert s.NewFolderPath(1, "docs", None) == ["tester", "docs"];
    assert CanMakeDirs(s.blobs, ["tester", "docs"]);
    var r1 := s.CreateFolder(1, "docs", None);
    outer := r1.value;
    assert s.folders == map[outer := FolderRec("docs", ["tester", "docs"], None, 1)];
    assert !SiblingExists(s.folders, 1, "drafts", Some(outer));
    assert s.NewFolderPath(1, "drafts", Some(outer)) == ["tester", "docs", "drafts"];
    assert CanMakeDirs(s.blobs, ["tester", "docs", "drafts"]);
    var r2 := s.CreateFolder(1, "drafts", Some(outer));
    inner := r2.value;
    assert s.folders[inner] == FolderRec("drafts", ["tester", "docs", "drafts"], Some(outer), 1);
    assert outer in s.folders && s.folders[outer].name == "docs";
    assert Chain(s.folders, outer) == [Crumb(outer, "docs")];
    assert Chain(s.folders, inner) == [Crumb(outer, "docs"), Crumb(inner, "drafts")];
    var l := s.ListFiles(1, Some(inner));
    listed := l.value;
    assert listed.path == [Crumb(outer, "docs"), Crumb(inner, "drafts")];
    assert SiblingExists(s.folders, 1, "drafts", Some(outer));
    again := s.CreateFolder(1, "drafts", Some(outer));
  }
}

=== FILE: storage.dfy ===
/**
 * The storage service's routes over its state (backend/app.py): uploads
 * with quota and collision handling, listings with a breadcrumb, deletion,
 * folder creation, share links with expiry and password, and streaming with
 * three ways to authorise a request.
 */
module Storage {
  import opened Common
  import opened Names
  import opened Mime
  import opened Ranges
  import opened Tables
  import opened Disk

  /** Libraries the routes call and the model does not look inside. */
  datatype Oracles = Oracles(
    secureFilename: string -> string,          // werkzeug secure_filename
    sha256: Bytes -> string,                   // calculate_file_hash, hex digest
    magicMime: Bytes -> Option<string>,        // magic.from_file; None when absent or raising
    guessMime: string -> Option<string>,       // mimetypes.guess_type on the stored name
    hashPassword: (string, string) -> string,  // bcrypt.hashpw(password, salt)
    checkPassword: (string, string) -> bool,   // bcrypt.checkpw(candidate, hash)
    decodeJwt: string -> Option<UserId>)       // decode a bearer token to its subject; None when invalid

  const OctetStream: string := "application/octet-stream"
  const SecondsPerDay: int := 86400

  /** `timedelta` accepts at most this many days either way. */
  const MaxDeltaDays: int := 999999999
  /** `datetime.min` and the whole seconds of `datetime.max`, in seconds since 1970-01-01 UTC. */
  const MinTimestamp: int := -62135596800
  const MaxTimestamp: int := 253402300799

  /**
   * `utcnow() + timedelta(days=days)` raises OverflowError: the day count is
   * beyond timedelta's range, or the sum falls outside year 1 to year 9999.
   */
  predicate ExpiryOverflows(now: int, days: int) {
    days < -MaxDeltaDays || MaxDeltaDays < days
    || now + days * SecondsPerDay < MinTimestamp || MaxTimestamp < now + days * SecondsPerDay
  }

  /** The multipart `file` part of an upload. */
  datatype Upload = Upload(filename: string, content: Bytes)

  /** A route's answer: its payload, or the HTTP status of the error it returns. */
  datatype Result<T> = Ok(value: T) | Err(status: int)

  datatype Uploaded = Uploaded(fileId: FileId, filename: string)

  /** The body of GET /api/files. */
  datatype Listing = Listing(
    folders: map<FolderId, FolderEntry>,
    files: map<FileId, FileEntry>,
    path: seq<Crumb>,
    currentFolderId: Option<int>,
    totalItems: int)

  /** The JSON body of POST /api/share. */
  datatype ShareRequest = ShareRequest(
    fileId: Option<int>,
    folderId: Option<int>,
    sharedWith: Option<string>,
    isPublic: bool,
    canEdit: bool,
    canDownload: bool,
    password: Option<string>,
    expiresDays: Option<int>)

  datatype ShareCreated = ShareCreated(token: string, expiresAt: Option<int>)

  /** A file as the shared-folder page lists it. */
  datatype SharedFile = SharedFile(name: string, size: nat, mime: Option<string>)

  /** What GET /share/<token> renders. */
  datatype ShareView =
    | ShareNotFound     // 404
    | ShareExpired      // 410
    | PasswordPrompt    // the password page
    | FileView(name: string, size: nat, mime: Option<string>, canDownload: bool, streamable: bool)
    | FolderView(name: string, files: map<FileId, SharedFile>, canDownload: bool)
    | ViewFailed        // 500: neither the shared file nor the shared folder exists

  /** What POST /api/share/<token>/verify-password answers. */
  datatype PasswordCheck =
    | NoPasswordShare   // 404
    | PasswordMissing   // 400
    | Redirect(url: string)
    | WrongPassword     // 401

  /** Who may stream: the file, or the status of the refusal. */
  datatype Access = Denied(status: int) | Granted(fileId: FileId)

  /** The response of GET /api/stream/<file_id>. */
  datatype Stream =
    | Refused(status: int)
    | Body(status: int, contentType: string, disposition: string, contentLength: int,
           contentRange: Option<string>, chunks: seq<Bytes>)

  /** `share.expires_at and share.expires_at < utcnow()`. */
  predicate Expired(s: ShareRec, now: int) {
    s.expiresAt.Some? && s.expiresAt.value < now
  }

  predicate HasPassword(s: ShareRec) {
    StrTruthy(s.password)
  }

  /** The stored MIME type: libmagic's answer, else the extension's guess, else the generic type. */
  function DetectMime(env: Oracles, name: string, content: Bytes): string {
    match env.magicMime(content)
    case Some(m) => m
    case None => (match env.guessMime(name) case Some(g) => g case None => OctetStream)
  }

  /** A folder of this owner with this name already sits under this parent. */
  predicate SiblingExists(folders: map<FolderId, FolderRec>, uid: UserId, name: string, parentId: Option<int>) {
    exists id :: id in folders && folders[id].name == name && folders[id].parentId == parentId && folders[id].userId == uid
  }

  /**
   * What the ORM does to the shares of a deleted file: the relationship has no
   * delete cascade and the column is nullable, so each such share loses its file
   * id and keeps everything else.
   */
  function DetachFile(shares: map<string, ShareRec>, id: FileId): (r: map<string, ShareRec>)
    ensures r.Keys == shares.Keys
    ensures forall t :: t in r ==> r[t].fileId != Some(id)
    ensures forall t :: t in shares && shares[t].fileId == Some(id) ==> r[t].fileId == None
    ensures forall t :: t in r ==> r[t].(fileId := shares[t].fileId) == shares[t]
    ensures forall t :: t in r && shares[t].fileId != Some(id) ==> r[t] == shares[t]
  {
    map t | t in shares :: if shares[t].fileId == Some(id) then shares[t].(fileId := None) else shares[t]
  }

  /** bcrypt accepts the password a hash was made from. */
  ghost predicate BcryptSound(env: Oracles) {
    forall p, salt :: env.checkPassword(p, env.hashPassword(p, salt))
  }

  /** The Range start is beyond what `f.seek` accepts. */
  predicate SeekOverflows(range: Option<string>, size: int) {
    var f := Frame(range, size);
    f.Partial? && !FitsInt64(f.start)
  }

  /** The headers and body stream_file produces for file `f` whose bytes are `content`. */
  ghost predicate Serves(f: FileRec, content: Bytes, range: Option<string>, r: Stream) {
    && r.Body?
    && r.contentType == (if StrTruthy(f.mime) then f.mime.value else OctetStream)
    && r.disposition == "inline; filename=\"" + f.originalName + "\""
    && match Frame(range, f.size)
       case Whole =>
         r.status == 200 && r.contentLength == f.size && r.contentRange == None
         && Flatten(r.chunks) == content
       case Partial(s, e, n) =>
         r.status == 206 && r.contentLength == n && r.contentRange == Some(ContentRange(s, e, f.size))
         && Flatten(r.chunks) == RangeBytes(content, s, n)
  }

  class Store {
    const users: map<UserId, User>
    const env: Oracles
    var files: map<FileId, FileRec>
    var folders: map<FolderId, FolderRec>
    var shares: map<string, ShareRec>
    var blobs: map<Path, Bytes>
    var dirs: set<Path>
    var now: int
    var nextFileId: FileId
    var nextFolderId: FolderId

    ghost predicate Valid()
      reads this
    {
      && 0 < nextFileId && 0 < nextFolderId
      && (forall id :: id in files ==> 0 < id < nextFileId)
      && (forall id :: id in folders ==> id < nextFolderId)
      && TreeOk(folders, users)
    }

    constructor (users: map<UserId, User>, env: Oracles, now: int)
      ensures Valid()
      ensures this.users == users && this.env == env && this.now == now
      ensures nextFileId == 1 && nextFolderId == 1
      ensures files == map[] && folders == map[] && shares == map[] && blobs == map[] && dirs == {}
    {
      this.users := users;
      this.env := env;
      this.now := now;
      files, folders, shares := map[], map[], map[];
      blobs, dirs := map[], {};
      nextFileId, nextFolderId := 1, 1;
    }

    /** The clock moves forward. */
    method Advance(seconds: nat)
      modifies this`now
      ensures now == old(now) + seconds
    {
      now := now + seconds;
    }

    /** get_user_storage_usage: the sum of the sizes of the user's files. */
    function Usage(uid: UserId): nat
      reads this
    {
      UsageBelow(files, uid, nextFileId)
    }

    predicate OwnsFile(uid: UserId, id: int)
      reads this
    {
      id in files && files[id].userId == uid
    }

    predicate OwnsFolder(uid: UserId, id: int)
      reads this
    {
      id in folders && folders[id].userId == uid
    }

    /** The directory an upload lands in: the folder's path, or the owner's directory. */
    function UploadDir(uid: UserId, folderId: Option<int>): Path
      reads this
      requires uid in users
      requires IntTruthy(folderId) ==> OwnsFolder(uid, folderId.value)
    {
      if IntTruthy(folderId) then folders[folderId.value].path else [users[uid].username]
    }

    /** upload_file (POST /api/upload). */
    method UploadFile(uid: UserId, part: Option<Upload>, folderId: Option<int>) returns (r: Result<Uploaded>)
      requires Valid()
      modifies this`dirs, this`blobs, this`files, this`nextFileId
      ensures Valid()
      ensures r.Err? ==> files == old(files) && blobs == old(blobs) && dirs == old(dirs) && nextFileId == old(nextFileId)
      ensures uid !in users ==> r == Err(404)
      ensures uid in users && (part.None? || part.value.filename == "") ==> r == Err(400)
      ensures uid in users && part.Some? && part.value.filename != "" ==>
        (r == Err(413) <==> old(Usage(uid)) + |part.value.content| > users[uid].storageQuota)
      ensures r == Err(404) && uid in users ==> IntTruthy(folderId) && FitsInt64(folderId.value) && !OwnsFolder(uid, folderId.value)
      ensures uid in users && part.Some? && part.value.filename != ""
              && old(Usage(uid)) + |part.value.content| <= users[uid].storageQuota ==>
        && (IntTruthy(folderId) && !FitsInt64(folderId.value) ==> r == Err(500))
        && (IntTruthy(folderId) && FitsInt64(folderId.value) && !OwnsFolder(uid, folderId.value) ==> r == Err(404))
        && ((IntTruthy(folderId) ==> OwnsFolder(uid, folderId.value)) && !CanMakeDirs(old(blobs), UploadDir(uid, folderId)) ==>
              r == Err(500))
      ensures r.Ok? <==>
        && uid in users && part.Some? && part.value.filename != ""
        && old(Usage(uid)) + |part.value.content| <= users[uid].storageQuota
        && (IntTruthy(folderId) ==> FitsInt64(folderId.value) && OwnsFolder(uid, folderId.value))
        && CanMakeDirs(old(blobs), UploadDir(uid, folderId))
      ensures r.Ok? ==>
        var up := part.value;
        var dir := UploadDir(uid, folderId);
        var sane := env.secureFilename(up.filename);
        var name := r.value.filename;
        var occupied := Occupied(old(blobs), old(dirs) + Prefixes(dir), dir);
        && r.value.fileId == old(nextFileId) && nextFileId == old(nextFileId) + 1
        && name !in occupied
        && (exists k: nat :: name == Attempt(sane, k) && forall j :: 0 <= j < k ==> Attempt(sane, j) in occupied)
        && dirs == old(dirs) + Prefixes(dir)
        && dir + [name] !in old(blobs)
        && blobs == old(blobs)[dir + [name] := up.content]
        && files == old(files)[r.value.fileId := FileRec(name, up.filename, dir + [name], |up.content|,
                                  Some(DetectMime(env, name, up.content)), env.sha256(up.content), uid, folderId)]
        && Usage(uid) == old(Usage(uid)) + |up.content| <= users[uid].storageQuota
      ensures forall u :: u != uid ==> Usage(u) == old(Usage(u))
    {
      if uid !in users {
        return Err(404);
      }
      if part.None? {
        return Err(400);
      }
      var up := part.value;
      if up.filename == "" {
        return Err(400);
      }
      var user := users[uid];
      var fileSize := |up.content|;
      var currentUsage := Usage(uid);
      if currentUsage + fileSize > user.storageQuota {
        return Err(413);
      }
      var filename := env.secureFilename(up.filename);
      var targetDir: Path;
      if IntTruthy(folderId) {
        if !FitsInt64(folderId.value) {
          // the folder query cannot bind the id and raises inside the route's try block
          return Err(500);
        }
        if !(folderId.value in folders && folders[folderId.value].userId == uid) {
          return Err(404);
        }
        targetDir := folders[folderId.value].path;
        assert PathOk(folders, users, folderId.value);
      } else {
        targetDir := [user.username];
      }
      if !CanMakeDirs(blobs, targetDir) {
        // os.makedirs raises inside the route's try block
        return Err(500);
      }
      var id, stored := PlaceFile(uid, targetDir, filename, up, folderId);
      r := Ok(Uploaded(id, stored));
    }

    /**
     * The tail of upload_file: makedirs, the first free name in the collision
     * loop, the write, and the new row under the next id.
     */
    method PlaceFile(uid: UserId, dir: Path, sane: string, up: Upload, folderId: Option<int>)
      returns (id: FileId, name: string)
      requires Valid()
      requires |dir| >= 1 && CanMakeDirs(blobs, dir)
      modifies this`dirs, this`blobs, this`files, this`nextFileId
      ensures Valid()
      ensures
        var occupied := Occupied(old(blobs), old(dirs) + Prefixes(dir), dir);
        && id == old(nextFileId) && nextFileId == id + 1
        && name !in occupied
        && (exists k: nat :: name == Attempt(sane, k) && forall j :: 0 <= j < k ==> Attempt(sane, j) in occupied)
        && dirs == old(dirs) + Prefixes(dir)
        && dir + [name] !in old(blobs)
        && blobs == old(blobs)[dir + [name] := up.content]
        && files == old(files)[id := FileRec(name, up.filename, dir + [name], |up.content|,
                                  Some(DetectMime(env, name, up.content)), env.sha256(up.content), uid, folderId)]
      ensures forall u :: Usage(u) == old(Usage(u)) + (if u == uid then |up.content| else 0)
    {
      dirs := dirs + Prefixes(dir);
      var taken := Occupied(blobs, dirs, dir);
      var renames;
      name, renames := ResolveCollision(taken, sane);
      assert dir[..|dir|] == dir;
      OccupiedMeansExists(blobs, dirs, dir, "");
      OccupiedMeansExists(blobs, dirs, dir, name);
      assert name != "" && name == Attempt(sane, renames);
      var filePath := ChildPath(dir, name);
      assert filePath == dir + [name] && filePath !in blobs;
      blobs := blobs[filePath := up.content];
      var record := FileRec(name, up.filename, filePath, |up.content|, Some(DetectMime(env, name, up.content)),
                            env.sha256(up.content), uid, folderId);
      id := AddFile(record);
    }

    /** The new row under the next id; only its owner's usage grows, by its size. */
    method AddFile(f: FileRec) returns (id: FileId)
      requires Valid()
      modifies this`files, this`nextFileId
      ensures Valid()
      ensures id == old(nextFileId) && nextFileId == id + 1
      ensures files == old(files)[id := f]
      ensures forall u :: Usage(u) == old(Usage(u)) + (if u == f.userId then f.size else 0)
    {
      id := nextFileId;
      UsageInsertAll(files, id, f);
      files := files[id := f];
      nextFileId := nextFileId + 1;
    }

    /** list_files (GET /api/files?folder_id=...), with the breadcrumb walk. */
    method ListFiles(uid: UserId, folderId: Option<int>) returns (r: Result<Listing>)
      requires Valid()
      ensures r.Ok? <==> IdFits(folderId)
      ensures r.Err? ==> r == Err(500)
      ensures r.Ok? ==>
        var l := r.value;
        && l.folders == FoldersIn(folders, uid, folderId)
        && l.files == FilesIn(files, uid, folderId)
        && l.currentFolderId == folderId && l.totalItems == |l.folders| + |l.files|
        && (IntTruthy(folderId) && OwnsFolder(uid, folderId.value) ==> l.path == Chain(folders, folderId.value))
        && (!(IntTruthy(folderId) && OwnsFolder(uid, folderId.value)) ==> l.path == [])
    {
      if !IdFits(folderId) {
        // the listing query cannot bind the id and raises inside the route's try block
        return Err(500);
      }
      var folderList := FoldersIn(folders, uid, folderId);
      var fileList := FilesIn(files, uid, folderId);
      var path: seq<Crumb> := [];
      if IntTruthy(folderId) && folderId.value in folders && folders[folderId.value].userId == uid {
        path := Breadcrumb(folderId.value);
      }
      r := Ok(Listing(folderList, fileList, path, folderId, |folderList| + |fileList|));
    }

    /** The breadcrumb walk of list_files: prepend each folder, then move to its parent. */
    method Breadcrumb(target: FolderId) returns (path: seq<Crumb>)
      requires Linked(folders) && target in folders
      ensures path == Chain(folders, target)
    {
      path := [];
      var temp: Option<FolderId> := Some(target);
      while temp.Some?
        invariant temp.Some? ==> temp.value in folders
        invariant temp.Some? ==> Chain(folders, target) == Chain(folders, temp.value) + path
        invariant temp.None? ==> Chain(folders, target) == path
        decreases if temp.Some? then temp.value else 0
      {
        var current := temp.value;
        var f := folders[current];
        assert LinkOk(folders, current);
        path := [Crumb(current, f.name)] + path;
        if IntTruthy(f.parentId) && f.parentId.value in folders {
          temp := Some(f.parentId.value);
          assert Chain(folders, current) == Chain(folders, f.parentId.value) + [Crumb(current, f.name)];
          assert Chain(folders, target) == Chain(folders, f.parentId.value) + path;
        } else {
          temp := None;
        }
      }
    }

    /**
     * delete_file (DELETE /api/delete/<file_id>): removes the bytes and the row;
     * the file's shares stay, with their file id cleared.
     */
    method DeleteFile(uid: UserId, fileId: int) returns (status: int)
      requires Valid()
      modifies this`blobs, this`files, this`shares
      ensures Valid()
      ensures !FitsInt64(fileId) ==> status == 500
      ensures FitsInt64(fileId) && !old(OwnsFile(uid, fileId)) ==> status == 404
      ensures status != 200 ==> files == old(files) && blobs == old(blobs) && shares == old(shares)
      ensures FitsInt64(fileId) && old(OwnsFile(uid, fileId)) ==>
        var p := old(files)[fileId].path;
        if p !in old(blobs) && p in old(dirs) then status == 500
        else
          && status == 200
          && files == old(files) - {fileId}
          && blobs == old(blobs) - {p}
          && shares == DetachFile(old(shares), fileId)
          && Usage(uid) + old(files)[fileId].size == old(Usage(uid))
    {
      if !FitsInt64(fileId) {
        // the file query cannot bind the id; the route has no handler for it
        return 500;
      }
      if !(fileId in files && files[fileId].userId == uid) {
        return 404;
      }
      var p := files[fileId].path;
      if p in blobs {
        blobs := blobs - {p};
      } else if p in dirs {
        // os.remove on a directory raises; the route has no handler for it
        return 500;
      }
      UsageRemove(files, uid, fileId, nextFileId);
      files := files - {fileId};
      shares := DetachFile(shares, fileId);
      status := 200;
    }


    /** The materialised path of a new folder: parent path + name, or owner/name at top level. */
    function NewFolderPath(uid: UserId, name: string, parentId: Option<int>): Path
      reads this
      requires IntTruthy(parentId) ==> OwnsFolder(uid, parentId.value)
      requires !IntTruthy(parentId) ==> uid in users
    {
      if IntTruthy(parentId) then folders[parentId.value].path + [name] else [users[uid].username, name]
    }

    /** create_folder (POST /api/folders). */
    method CreateFolder(uid: UserId, rawName: string, parentId: Option<int>) returns (r: Result<FolderId>)
      requires Valid()
      modifies this`dirs, this`folders, this`nextFolderId
      ensures Valid()
      ensures r.Err? ==> folders == old(folders) && dirs == old(dirs) && nextFolderId == old(nextFolderId)
      ensures Strip(rawName) == "" ==> r == Err(400)
      ensures Strip(rawName) != "" && IntTruthy(parentId) && !FitsInt64(parentId.value) ==> r == Err(500)
      ensures Strip(rawName) != "" && IntTruthy(parentId) && FitsInt64(parentId.value) && !old(OwnsFolder(uid, parentId.value)) ==>
        r == Err(404)
      ensures Strip(rawName) != "" && !IntTruthy(parentId) && uid !in users ==> r == Err(500)
      ensures
        var name := Strip(rawName);
        name != "" && (IntTruthy(parentId) ==> FitsInt64(parentId.value) && old(OwnsFolder(uid, parentId.value)))
        && (!IntTruthy(parentId) ==> uid in users) ==>
          && (SiblingExists(old(folders), uid, name, parentId) ==> r == Err(409))
          && (!SiblingExists(old(folders), uid, name, parentId) ==>
                var path := old(NewFolderPath(uid, name, parentId));
                if !CanMakeDirs(blobs, path) then r == Err(500)
                else
                  && r == Ok(old(nextFolderId))
                  && nextFolderId == old(nextFolderId) + 1
                  && folders == old(folders)[r.value := FolderRec(name, path, parentId, uid)]
                  && dirs == old(dirs) + Prefixes(path))
    {
      var name := Strip(rawName);
      if name == "" {
        return Err(400);
      }
      var path: Path;
      if IntTruthy(parentId) {
        if !FitsInt64(parentId.value) {
          // the parent query cannot bind the id and raises inside the route's try block
          return Err(500);
        }
        if !(parentId.value in folders && folders[parentId.value].userId == uid) {
          return Err(404);
        }
        path := folders[parentId.value].path + [name];
      } else {
        if uid !in users {
          // User.query.get returns None and `user.username` raises
          return Err(500);
        }
        path := [users[uid].username, name];
      }
      assert path == NewFolderPath(uid, name, parentId);
      if SiblingExists(folders, uid, name, parentId) {
        return Err(409);
      }
      if !CanMakeDirs(blobs, path) {
        return Err(500);
      }
      var id := AddFolder(FolderRec(name, path, parentId, uid));
      r := Ok(id);
    }

    /** The tail of create_folder: makedirs, then the new row under the next id. */
    method AddFolder(f: FolderRec) returns (id: FolderId)
      requires Valid()
      requires IntTruthy(f.parentId) ==>
        var p := f.parentId.value;
        p in folders && folders[p].userId == f.userId && f.path == folders[p].path + [f.name]
      requires !IntTruthy(f.parentId) ==> f.userId in users && f.path == [users[f.userId].username, f.name]
      modifies this`dirs, this`folders, this`nextFolderId
      ensures Valid()
      ensures id == old(nextFolderId) && nextFolderId == id + 1
      ensures folders == old(folders)[id := f]
      ensures dirs == old(dirs) + Prefixes(f.path)
    {
      dirs := dirs + Prefixes(f.path);
      id := nextFolderId;
      TreeOkAdd(folders, users, id, f);
      folders := folders[id := f];
      nextFolderId := nextFolderId + 1;
    }

    /** create_share (POST /api/share); `token` and `salt` are the random values the route draws. */
    method CreateShare(uid: UserId, req: ShareRequest, token: string, salt: string) returns (r: Result<ShareCreated>)
      modifies this`shares
      ensures r.Err? ==> shares == old(shares)
      ensures IntTruthy(req.fileId) && !FitsInt64(req.fileId.value) ==> r == Err(500)
      ensures IntTruthy(req.fileId) && FitsInt64(req.fileId.value) && !OwnsFile(uid, req.fileId.value) ==> r == Err(404)
      ensures !IntTruthy(req.fileId) && IntTruthy(req.folderId) && !FitsInt64(req.folderId.value) ==> r == Err(500)
      ensures !IntTruthy(req.fileId) && IntTruthy(req.folderId) && FitsInt64(req.folderId.value) && !OwnsFolder(uid, req.folderId.value) ==>
        r == Err(404)
      ensures !IntTruthy(req.fileId) && !IntTruthy(req.folderId) ==> r == Err(400)
      ensures
        var owned := if IntTruthy(req.fileId) then FitsInt64(req.fileId.value) && OwnsFile(uid, req.fileId.value)
                     else IntTruthy(req.folderId) && FitsInt64(req.folderId.value) && OwnsFolder(uid, req.folderId.value);
        var known := StrTruthy(req.sharedWith) ==> exists u :: u in users && users[u].username == req.sharedWith.value;
        var overflow := IntTruthy(req.expiresDays) && ExpiryOverflows(now, req.expiresDays.value);
        var storable := IdFits(req.fileId) && IdFits(req.folderId) && token !in old(shares);
        && (owned && !known ==> r == Err(404))
        && (owned && known && overflow ==> r == Err(500))
        && (owned && known && !overflow && !storable ==> r == Err(500))
        && (r.Ok? <==> owned && known && !overflow && storable)
      ensures r.Ok? ==>
        && r.value.token == token
        && r.value.expiresAt == (if IntTruthy(req.expiresDays) then Some(now + req.expiresDays.value * SecondsPerDay) else None)
        && token in shares && shares == old(shares)[token := shares[token]]
        && var s := shares[token];
           && s.fileId == req.fileId && s.folderId == req.folderId && s.ownerId == uid
           && s.isPublic == req.isPublic && s.canEdit == req.canEdit && s.canDownload == req.canDownload
           && (s.sharedWithId.Some? <==> StrTruthy(req.sharedWith))
           && (s.sharedWithId.Some? ==> s.sharedWithId.value in users && users[s.sharedWithId.value].username == req.sharedWith.value)
           && s.password == (if StrTruthy(req.password) then Some(env.hashPassword(req.password.value, salt)) else None)
           && s.expiresAt == r.value.expiresAt
    {
      if IntTruthy(req.fileId) {
        if !FitsInt64(req.fileId.value) {
          // the file query cannot bind the id; the route has no handler for it
          return Err(500);
        }
        if !(req.fileId.value in files && files[req.fileId.value].userId == uid) {
          return Err(404);
        }
      } else if IntTruthy(req.folderId) {
        if !FitsInt64(req.folderId.value) {
          return Err(500);
        }
        if !(req.folderId.value in folders && folders[req.folderId.value].userId == uid) {
          return Err(404);
        }
      } else {
        return Err(400);
      }
      var sharedWithId: Option<UserId> := None;
      if StrTruthy(req.sharedWith) {
        if !(exists u :: u in users && users[u].username == req.sharedWith.value) {
          return Err(404);
        }
        var u :| u in users && users[u].username == req.sharedWith.value;
        sharedWithId := Some(u);
      }
      var expiresAt: Option<int> := None;
      if IntTruthy(req.expiresDays) {
        if ExpiryOverflows(now, req.expiresDays.value) {
          // the datetime arithmetic raises OverflowError, which the route does not catch
          return Err(500);
        }
        expiresAt := Some(now + req.expiresDays.value * SecondsPerDay);
      }
      var passwordHash: Option<string> := None;
      if StrTruthy(req.password) {
        passwordHash := Some(env.hashPassword(req.password.value, salt));
      }
      if !(IdFits(req.fileId) && IdFits(req.folderId)) || token in shares {
        // the commit fails: an id beyond 64 bits cannot be bound, or the token is not unique
        return Err(500);
      }
      shares := shares[token := ShareRec(req.fileId, req.folderId, uid, sharedWithId, req.isPublic,
                                         req.canEdit, req.canDownload, passwordHash, expiresAt)];
      r := Ok(ShareCreated(token, expiresAt));
    }

    /** The files of a shared folder: every row whose folder_id matches, whoever owns it. */
    function SharedFolderFiles(folderId: Option<int>): map<FileId, SharedFile>
      reads this
    {
      map id | id in files && files[id].folderId == folderId
        :: SharedFile(files[id].originalName, files[id].size, files[id].mime)
    }

    /** view_share (GET /share/<token>?authenticated=...). */
    function ViewShare(token: string, authenticated: Option<string>): (v: ShareView)
      reads this
      ensures v == ShareNotFound <==> token !in shares
      ensures v == ShareExpired <==> token in shares && Expired(shares[token], now)
      ensures v == PasswordPrompt <==>
        token in shares && !Expired(shares[token], now) && HasPassword(shares[token]) && !StrTruthy(authenticated)
      ensures token in shares && !Expired(shares[token], now) && !(HasPassword(shares[token]) && !StrTruthy(authenticated)) ==>
        var s := shares[token];
        var fileThere := s.fileId.Some? && s.fileId.value in files;
        var folderThere := s.folderId.Some? && s.folderId.value in folders;
        && (v.FileView? <==> fileThere)
        && (v.FolderView? <==> !fileThere && folderThere)
        && (v == ViewFailed <==> !fileThere && !folderThere)
      ensures v.FileView? ==>
        var s := shares[token];
        && token in shares && s.fileId.Some? && s.fileId.value in files
        && var f := files[s.fileId.value];
           v == FileView(f.originalName, f.size, f.mime, s.canDownload, IsStreamable(f.mime))
      ensures v.FolderView? ==>
        var s := shares[token];
        && token in shares && s.folderId.Some? && s.folderId.value in folders
        && v == FolderView(folders[s.folderId.value].name, SharedFolderFiles(s.folderId), s.canDownload)
    {
      if token !in shares then ShareNotFound
      else
        var s := shares[token];
        if Expired(s, now) then ShareExpired
        else if HasPassword(s) && !StrTruthy(authenticated) then PasswordPrompt
        else if s.fileId.Some? && s.fileId.value in files then
          var f := files[s.fileId.value];
          FileView(f.originalName, f.size, f.mime, s.canDownload, IsStreamable(f.mime))
        else if s.folderId.Some? && s.folderId.value in folders then
          FolderView(folders[s.folderId.value].name, SharedFolderFiles(s.folderId), s.canDownload)
        else ViewFailed
    }

    /** verify_share_password (POST /api/share/<token>/verify-password). */
    function VerifySharePassword(token: string, candidate: Option<string>): (v: PasswordCheck)
      reads this
      ensures v == NoPasswordShare <==> token !in shares || !HasPassword(shares[token])
      ensures v == PasswordMissing <==> token in shares && HasPassword(shares[token]) && !StrTruthy(candidate)
      ensures v.Redirect? <==>
        && token in shares && HasPassword(shares[token]) && StrTruthy(candidate)
        && env.checkPassword(candidate.value, shares[token].password.value)
      ensures v.Redirect? ==> v.url == "/share/" + token + "?authenticated=1"
    {
      if token !in shares || !HasPassword(shares[token]) then NoPasswordShare
      else if !StrTruthy(candidate) then PasswordMissing
      else if env.checkPassword(candidate.value, shares[token].password.value) then
        Redirect("/share/" + token + "?authenticated=1")
      else WrongPassword
    }

    /**
     * The permission step of stream_file: a share token first, then a `jwt`
     * query parameter, then the Authorization header.
     */
    function Authorize(fileId: int, token: Option<string>, jwt: Option<string>, bearer: Option<string>): (a: Access)
      reads this
      ensures a.Granted? ==> a.fileId == fileId && fileId in files
      ensures StrTruthy(token) ==>
        var t := token.value;
        && (a == Denied(403) <==> t !in shares || shares[t].fileId != Some(fileId))
        && (a == Denied(410) <==> t in shares && shares[t].fileId == Some(fileId) && Expired(shares[t], now))
        && (a.Granted? <==> t in shares && shares[t].fileId == Some(fileId) && !Expired(shares[t], now) && fileId in files)
        && (a == Denied(404) <==> t in shares && shares[t].fileId == Some(fileId) && !Expired(shares[t], now) && fileId !in files)
      ensures !StrTruthy(token) ==>
        var cred := if StrTruthy(jwt) then jwt else bearer;
        && (a == Denied(403) <==> cred.None? || env.decodeJwt(cred.value).None? || !FitsInt64(fileId))
        && (a.Granted? <==>
              cred.Some? && env.decodeJwt(cred.value).Some? && FitsInt64(fileId) && OwnsFile(env.decodeJwt(cred.value).value, fileId))
        && (a == Denied(404) <==>
              cred.Some? && env.decodeJwt(cred.value).Some? && FitsInt64(fileId) && !OwnsFile(env.decodeJwt(cred.value).value, fileId))
        && a != Denied(410)
    {
      if StrTruthy(token) then
        var t := token.value;
        if t !in shares || shares[t].fileId != Some(fileId) then Denied(403)
        else if Expired(shares[t], now) then Denied(410)
        else if fileId in files then Granted(fileId)
        else Denied(404)
      else
        var cred := if StrTruthy(jwt) then jwt else bearer;
        if cred.None? then Denied(403)
        else match env.decodeJwt(cred.value)
          case None => Denied(403)
          case Some(u) =>
            // binding an id outside 64 bits to the query raises inside the route's try block
            if !FitsInt64(fileId) then Denied(403)
            else if OwnsFile(u, fileId) then Granted(fileId) else Denied(404)
    }

    /** stream_file (GET /api/stream/<file_id>): permission, then the whole file or a range. */
    method StreamFile(fileId: int, token: Option<string>, jwt: Option<string>, bearer: Option<string>, range: Option<string>)
      returns (r: Stream)
      ensures Authorize(fileId, token, jwt, bearer).Denied? ==> r == Refused(Authorize(fileId, token, jwt, bearer).status)
      ensures Authorize(fileId, token, jwt, bearer).Granted? ==>
        var f := files[fileId];
        && (!PathExists(blobs, dirs, f.path) ==> r == Refused(404))
        && (f.path !in blobs && f.path in dirs ==> r == Refused(500))
        && (f.path in blobs && SeekOverflows(range, f.size) ==> r == Refused(500))
        && (f.path in blobs && !SeekOverflows(range, f.size) ==> Serves(f, blobs[f.path], range, r))
      ensures r.Body? ==> forall i :: 0 <= i < |r.chunks| ==> 0 < |r.chunks[i]| <= ChunkSize
    {
      var access := Authorize(fileId, token, jwt, bearer);
      if access.Denied? {
        return Refused(access.status);
      }
      var f := files[fileId];
      if !(f.path in blobs || f.path in dirs) {
        return Refused(404);
      }
      if f.path !in blobs {
        // opening a directory for reading raises
        return Refused(500);
      }
      var content := blobs[f.path];
      var contentType := if StrTruthy(f.mime) then f.mime.value else OctetStream;
      var disposition := "inline; filename=\"" + f.originalName + "\"";
      var framing := Frame(range, f.size);
      match framing {
        case Whole =>
          var chunks := ReadAll(content);
          r := Body(200, contentType, disposition, f.size, None, chunks);
        case Partial(start, end, length) =>
          if !FitsInt64(start) {
            // f.seek raises OverflowError for an offset beyond a C long
            return Refused(500);
          }
          var chunks := ReadRange(content, start, length);
          r := Body(206, contentType, disposition, length, Some(ContentRange(start, end, f.size)), chunks);
      }
    }
  }
}

=== FILE: tables.dfy ===
/**
 * The database tables of the storage service (backend/app.py, models User,
 * File, Folder and Share) and the queries the core runs over them: the
 * per-user usage sum, the listing filters and the folder breadcrumb.
 */
module Tables {
  import opened Common
  import opened Mime

  type UserId = int
  type FileId = int
  type FolderId = int

  datatype User = User(username: string, storageQuota: int)

  /** A File row. `folderId` is stored exactly as the upload form gave it. */
  datatype FileRec = FileRec(
    filename: string,        // stored, disambiguated name
    originalName: string,    // name as uploaded
    path: Path,              // location of the bytes
    size: nat,
    mime: Option<string>,
    hash: string,
    userId: UserId,
    folderId: Option<int>)

  /** A Folder row: display name, materialised path, parent and owner. */
  datatype FolderRec = FolderRec(name: string, path: Path, parentId: Option<int>, userId: UserId)

  /** A Share row, keyed by its token in the share table. */
  datatype ShareRec = ShareRec(
    fileId: Option<int>,
    folderId: Option<int>,
    ownerId: UserId,
    sharedWithId: Option<UserId>,
    isPublic: bool,
    canEdit: bool,
    canDownload: bool,
    password: Option<string>,   // bcrypt hash
    expiresAt: Option<int>)

  /** One file of a listing, shown under its original name. */
  datatype FileEntry = FileEntry(name: string, size: nat, mime: Option<string>, streamable: bool)

  /** One folder of a listing. */
  datatype FolderEntry = FolderEntry(name: string)

  /** One step of a breadcrumb. */
  datatype Crumb = Crumb(id: FolderId, name: string)

  // ---------------------------------------------------------------- usage

  /** Sum of `size` over the user's files whose id is below `n`. */
  function UsageBelow(files: map<FileId, FileRec>, uid: UserId, n: int): nat
    decreases n
  {
    if n <= 0 then 0
    else UsageBelow(files, uid, n - 1) + (if n - 1 in files && files[n - 1].userId == uid then files[n - 1].size else 0)
  }

  /** Two tables that agree below `n` have the same usage below `n`. */
  lemma {:induction false} UsageAgree(f1: map<FileId, FileRec>, f2: map<FileId, FileRec>, uid: UserId, n: int)
    requires forall k :: 0 <= k < n ==> (k in f1 <==> k in f2) && (k in f1 ==> f1[k] == f2[k])
    ensures UsageBelow(f1, uid, n) == UsageBelow(f2, uid, n)
    decreases n
  {
    if n > 0 {
      UsageAgree(f1, f2, uid, n - 1);
    }
  }

  /** Raising the bound past every id does not change the sum. */
  lemma {:induction false} UsageBeyondKeys(files: map<FileId, FileRec>, uid: UserId, n: int, m: int)
    requires forall k :: k in files ==> k < n
    requires n <= m
    ensures UsageBelow(files, uid, m) == UsageBelow(files, uid, n)
    decreases m - n
  {
    if n < m {
      UsageBeyondKeys(files, uid, n, m - 1);
    }
  }

  /** Adding a row with a fresh, largest id adds its size to its owner's usage only. */
  lemma UsageInsert(files: map<FileId, FileRec>, uid: UserId, id: FileId, f: FileRec)
    requires 0 <= id && forall k :: k in files ==> k < id
    ensures UsageBelow(files[id := f], uid, id + 1)
         == UsageBelow(files, uid, id) + (if f.userId == uid then f.size else 0)
  {
    UsageAgree(files[id := f], files, uid, id);
  }

  /** Appending a row with a fresh, larger id changes every user's usage by that row's share. */
  lemma UsageInsertAll(files: map<FileId, FileRec>, id: FileId, f: FileRec)
    requires 0 <= id && forall k :: k in files ==> k < id
    ensures forall u :: UsageBelow(files[id := f], u, id + 1)
                      == UsageBelow(files, u, id) + (if f.userId == u then f.size else 0)
  {
    forall u
      ensures UsageBelow(files[id := f], u, id + 1) == UsageBelow(files, u, id) + (if f.userId == u then f.size else 0)
    {
      UsageInsert(files, u, id, f);
    }
  }

  /** Removing a row takes its size off its owner's usage only. */
  lemma {:induction false} UsageRemove(files: map<FileId, FileRec>, uid: UserId, id: FileId, n: int)
    requires id in files && 0 <= id < n
    ensures UsageBelow(files, uid, n)
         == UsageBelow(files - {id}, uid, n) + (if files[id].userId == uid then files[id].size else 0)
    decreases n
  {
    if id < n - 1 {
      UsageRemove(files, uid, id, n - 1);
    } else {
      UsageAgree(files, files - {id}, uid, n - 1);
    }
  }

  // ---------------------------------------------------------------- listings

  function FileEntryOf(f: FileRec): FileEntry {
    FileEntry(f.originalName, f.size, f.mime, IsStreamable(f.mime))
  }

  /** `File.query.filter_by(user_id=uid, folder_id=folder)`; None is SQL `IS NULL`. */
  function FilesIn(files: map<FileId, FileRec>, uid: UserId, folder: Option<int>): map<FileId, FileEntry> {
    map id | id in files && files[id].userId == uid && files[id].folderId == folder :: FileEntryOf(files[id])
  }

  /** `Folder.query.filter_by(user_id=uid, parent_id=parent)`. */
  function FoldersIn(folders: map<FolderId, FolderRec>, uid: UserId, parent: Option<int>): map<FolderId, FolderEntry> {
    map id | id in folders && folders[id].userId == uid && folders[id].parentId == parent :: FolderEntry(folders[id].name)
  }

  /**
   * A file stored with no folder and one stored with folder 0 both live in
   * the owner's root directory, but neither listing shows the other.
   */
  lemma RootFormsListedApart(files: map<FileId, FileRec>, uid: UserId, id: FileId)
    requires id in files && files[id].userId == uid
    ensures files[id].folderId == None ==> id in FilesIn(files, uid, None) && id !in FilesIn(files, uid, Some(0))
    ensures files[id].folderId == Some(0) ==> id in FilesIn(files, uid, Some(0)) && id !in FilesIn(files, uid, None)
  {
  }

  // ---------------------------------------------------------------- folder tree

  /** The parent of folder `id`, if any, is an older folder of the same owner. */
  predicate LinkOk(folders: map<FolderId, FolderRec>, id: FolderId)
    requires id in folders
  {
    var f := folders[id];
    0 < id &&
    (IntTruthy(f.parentId) ==>
      var p := f.parentId.value;
      p in folders && 0 < p < id && folders[p].userId == f.userId)
  }

  /** The folder's path is its parent's path plus its name, or owner/name at top level. */
  predicate PathOk(folders: map<FolderId, FolderRec>, users: map<UserId, User>, id: FolderId)
    requires id in folders && LinkOk(folders, id)
  {
    var f := folders[id];
    if IntTruthy(f.parentId) then f.path == folders[f.parentId.value].path + [f.name]
    else f.userId in users && f.path == [users[f.userId].username, f.name]
  }

  ghost predicate Linked(folders: map<FolderId, FolderRec>) {
    forall id :: id in folders ==> LinkOk(folders, id)
  }

  ghost predicate TreeOk(folders: map<FolderId, FolderRec>, users: map<UserId, User>) {
    Linked(folders) && forall id :: id in folders ==> PathOk(folders, users, id)
  }

  /** The folders from the top-level ancestor of `id` down to `id` itself. */
  function Chain(folders: map<FolderId, FolderRec>, id: FolderId): seq<Crumb>
    requires Linked(folders) && id in folders
    decreases id
  {
    var f := folders[id];
    if IntTruthy(f.parentId) then Chain(folders, f.parentId.value) + [Crumb(id, f.name)]
    else [Crumb(id, f.name)]
  }

  /**
   * The breadcrumb runs from a top-level folder to the requested one; every
   * entry names a folder of the same owner and is the parent of the next.
   */
  lemma {:induction false} ChainShape(folders: map<FolderId, FolderRec>, id: FolderId)
    requires Linked(folders) && id in folders
    ensures var c := Chain(folders, id);
      && |c| >= 1
      && c[|c| - 1] == Crumb(id, folders[id].name)
      && c[0].id in folders && !IntTruthy(folders[c[0].id].parentId)
      && (forall i :: 0 <= i < |c| ==>
            c[i].id in folders && folders[c[i].id].name == c[i].name
            && folders[c[i].id].userId == folders[id].userId)
      && (forall i :: 0 < i < |c| ==> folders[c[i].id].parentId == Some(c[i - 1].id))
    decreases id
  {
    var f := folders[id];
    if IntTruthy(f.parentId) {
      var p := f.parentId.value;
      ChainShape(folders, p);
      var c := Chain(folders, p);
      assert Chain(folders, id) == c + [Crumb(id, f.name)];
    }
  }

  function CrumbNames(c: seq<Crumb>): seq<string> {
    if c == [] then [] else CrumbNames(c[..|c| - 1]) + [c[|c| - 1].name]
  }

  /** A folder's path is its owner's name followed by the names along its breadcrumb. */
  lemma {:induction false} PathFollowsChain(folders: map<FolderId, FolderRec>, users: map<UserId, User>, id: FolderId)
    requires TreeOk(folders, users) && id in folders
    ensures folders[id].userId in users
    ensures folders[id].path == [users[folders[id].userId].username] + CrumbNames(Chain(folders, id))
    decreases id
  {
    var f := folders[id];
    assert PathOk(folders, users, id);
    if IntTruthy(f.parentId) {
      var p := f.parentId.value;
      PathFollowsChain(folders, users, p);
      var c := Chain(folders, p);
      assert Chain(folders, id) == c + [Crumb(id, f.name)];
      assert (c + [Crumb(id, f.name)])[..|c|] == c;
    } else {
      assert CrumbNames([Crumb(id, f.name)]) == [f.name];
    }
  }

  /**
   * A folder added under a fresh id larger than every existing one, whose
   * parent link and path obey the rules, keeps the tree well formed.
   */
  lemma TreeOkAdd(folders: map<FolderId, FolderRec>, users: map<UserId, User>, id: FolderId, f: FolderRec)
    requires TreeOk(folders, users)
    requires 0 < id && forall k :: k in folders ==> k < id
    requires IntTruthy(f.parentId) ==>
      var p := f.parentId.value;
      p in folders && folders[p].userId == f.userId && f.path == folders[p].path + [f.name]
    requires !IntTruthy(f.parentId) ==> f.userId in users && f.path == [users[f.userId].username, f.name]
    ensures TreeOk(folders[id := f], users)
  {
    var after := folders[id := f];
    forall k | k in after ensures LinkOk(after, k) {
      if k != id {
        assert LinkOk(folders, k);
      } else if IntTruthy(f.parentId) {
        assert LinkOk(folders, f.parentId.value);
      }
    }
    forall k | k in after ensures PathOk(after, users, k) {
      if k != id {
        assert LinkOk(folders, k) && PathOk(folders, users, k);
      }
    }
  }
}
